=== FILE: README.md ===
# A Dafny model of the info-805 ray tracer core

The ray tracer renders an image by casting one eye ray per pixel into a
scene of spheres lit by lights. Each ray is shaded recursively. This project
models the core of the ray tracer over exact reals and proves properties of
that model:

- **`Sphere::rayIntersection`** (module `Spheres`, sphere.dfy): the
  signed code a sphere returns, and the point it writes. For a ray whose
  direction is a unit vector, the code is negative or zero for a hit and
  positive for a miss, and for a hit the written point is the nearer forward
  root of the ray–sphere quadratic, or the far root when the ray starts
  inside the sphere. The one exception is a sphere behind the ray whose line
  touches it: the code is 0 and the written point is the ray origin, which is
  not on the sphere. For any other direction the code does not measure the
  gap between the line and the sphere (see below). Also `getNormal` and
  `getMaterial`.
- **`Scene::rayIntersection`, `addObject`, `addLight`** (module `Scenes`,
  scene.dfy): a linear scan for the object whose hit point is nearest to the
  ray origin, where the first object wins ties.
- **`Renderer`** (modules `Optics`, `Backgrounds` and `Renderers`):
  - `reflect` and `refractionRay` (optics.dfy);
  - `BasicBackground::backgroundColor`, the sky and the checkerboard ground
    (backgrounds.dfy);
  - `background` with its light glows, `shadow`, `illumination`, `trace`, and
    the eye rays and clamped pixels of `render` (renderer.dfy).

The square root, `acos` and `powf` of the C maths library are given as a
record `MathLib` of functions. The only axiom is `ValidSqrt`: `sqrt` returns
the non-negative root of a non-negative real. A few lemmas about `powf` use
`ValidPow`, which says that `powf` of a non-negative base is non-negative.
Objects and lights are records of the functions the renderer calls on them.
A sphere becomes an object through `Spheres.AsObject`.

## Behaviour of the code worth knowing

Some of what the code does differs from what a reader of a ray tracer would
expect. The model keeps the code's behaviour, and a lemma states each point:

- **The mirror ray starts at the origin of the traced ray, not at the hit
  point.** `trace` builds the reflected ray from `ray.origin`, not from
  `p_i` (Renderer.h:171). It is built without a depth, so it gets the Ray.h
  default depth, minus one (Renderer.h:172), not `ray.depth - 1`.
  `Renderers.SecondaryRays` states both facts.
- **The refracted ray has depth two less.** `refractionRay` already
  decrements the depth (Renderer.h:245) and `trace` decrements it again
  (Renderer.h:178), so the refracted ray has `ray.depth - 2`
  (`Renderers.SecondaryRays`).
- **A hit exactly at the ray origin counts as a miss.**
  `Scene::rayIntersection` returns minus the distance to the hit point
  (Scene.h:94). A hit at the ray origin therefore returns 0, and `trace`
  treats 0 as a miss and returns the background (Renderer.h:169;
  `Scenes.HitCodeSign`, `Renderers.HitAtOriginIsBackground`).
- **A sphere behind the ray that its line touches hides the whole ray.**
  For such a sphere `sphere_distance` is 0 and both roots are negative, so
  `rayIntersection` returns 0, a hit, with the ray origin as the point
  (Sphere.cpp:91, :106-109, :116). The scene counts it as a hit at distance
  0, nearer than any other (Scene.h:82, :85), and returns 0, so `trace`
  shows the background instead of whatever lies ahead (Renderer.h:169), and
  `shadow` stops at once, ignoring occluders ahead (Renderer.h:264-269).
  `Spheres.SphereBehind` and `Renderers.HitAtOriginIsBackground` state this.
- **The index ratio is chosen by the sign of `direction·N`.** A ray coming
  from outside (`direction·N <= 0`) uses `out/in`, which is Snell's η₁/η₂
  for a ray passing from the outer medium into the inner one; any other ray
  uses `in/out` (Renderer.h:224-230). `Optics.Snell` states the law with this
  ratio.
- **Depth need not decrease.** Every ray with depth > 0 that hits a
  reflective object spawns a mirror ray of depth `defaultDepth - 1`,
  whatever its own depth. At a grazing hit, where the direction is
  perpendicular to the normal, the mirror ray is the traced ray itself with
  that depth (`Renderers.GrazingMirrorRepeats`), so with a default depth of
  2 or more `trace` can call itself on the same ray forever. The model
  defines `trace` only for a default depth of at most 1, which is what
  `Renderers.Trace` requires.
- **Eye rays between the row ends are not unit vectors.** `render`
  normalises the two edge directions of a row but not their blend
  (Renderer.h:128-133), so an inner pixel's direction is shorter than 1
  (`Renderers.PixelDirectionLength`). `Sphere::rayIntersection` takes
  `center_direction - center_direction.dot(direction) * direction` as the
  perpendicular from the centre (Sphere.cpp:86), which it is only for a unit
  direction. So a sphere straight ahead can be missed: in a three-pixel row
  from (0.6, 0, −0.8) to (−0.6, 0, −0.8), the middle pixel looks along
  (0, 0, −0.8), and from (0, 0, 5) the unit sphere at the origin gives the
  code 2.24, a miss, although the ray meets it at t = 5
  (`Spheres.ShortDirectionMiss`, `ShortEyeRays.MiddleRayMisses`). With that
  sphere alone in the scene, `trace` returns the background for that pixel
  (`ShortEyeRays.MiddleRayShowsBackground`), and `render` writes it clamped
  (`Renderers.Render`).

## Model

| member | source | states |
|---|---|---|
| Spheres.RayIntersection | Sphere.cpp:83-122 | `Sphere::rayIntersection`; its cases are stated by `Spheres.MissOfTheLine`, `Spheres.HitInFront`, `Spheres.SphereBehind` and `Spheres.HitFromInside`, and its meaning both ways against the sphere's surface by `Spheres.NearestForwardHit` and `Spheres.HitIsOnTheRay` |
| Spheres.ChooseRoot | Sphere.cpp:99-114 | the chosen ray parameter is the least non-negative root, and 0 when both roots are negative |
| Spheres.GetNormal | Sphere.cpp:70-76 | the normal at a point other than the centre is the unit vector along `p - center` (it scales back to `p - center` by the distance); at the centre it is the zero vector |
| Spheres.UniformMaterial | Sphere.cpp:78-81 | a sphere has its one material at every point |
| Spheres.GapAndDelta | Sphere.cpp:85-94 | for a unit direction, `delta` is −4 × `sphere_distance`, and the squared distance from the centre to the point at `t`, minus `radius²`, is `(t + b)² + sphere_distance` with `b = direction·center_direction` |
| Spheres.DiscriminantNonNegative | Sphere.cpp:91-97 | when the line meets the sphere, `delta >= 0` and `solution1 <= solution2` |
| Spheres.SolutionsAreTheIntersections | Sphere.cpp:91-97 | a point of the ray's line is on the sphere if and only if its parameter is `solution1` or `solution2` |
| Spheres.MissOfTheLine | Sphere.cpp:84-121 | when the line passes the sphere, the code is positive, the written point is `center - center_closest_point` (the foot of the perpendicular from the centre, reflected through the centre), which is off the sphere, and no point of the line is on the sphere |
| Spheres.HitInFront | Sphere.cpp:100-116 | with both roots ahead, it is a hit at the nearer root, which is on the sphere |
| Spheres.SphereBehind | Sphere.cpp:106-116 | with both roots behind, the code is `-sphere_distance >= 0` (a hit only when the ray grazes), the point is the ray origin, and no forward point is on the sphere |
| Spheres.HitFromInside | Sphere.cpp:111-116 | from inside the sphere, it is a hit at the far root, which is on the sphere |
| Spheres.NearestForwardHit | Sphere.cpp:84-121 | whenever some forward point of the ray is on the sphere, it is a hit, and the written point is a forward point on the sphere no farther along the ray |
| Spheres.HitIsOnTheRay | Sphere.cpp:84-121 | a strictly negative code comes with a point on the sphere, ahead on the ray |
| Spheres.DistanceAlongRay | Sphere.cpp:116 | the point at parameter `t >= 0` of a unit ray is at distance `t` from its origin |
| Spheres.ShortDirectionMiss | Sphere.cpp:84-121 | along the non-unit direction (0, 0, −0.8) from (0, 0, 5), the unit sphere at the origin gives the positive code 2.24, though the point at t = 5 is on it |
| Spheres.HeadOnHit | Sphere.cpp:70-121 | a ray aimed at the centre from `k > radius` away is a hit with code `-radius²`, at distance `k - radius`, where the normal points straight back along the ray |
| Scenes.AddObject | Scene.h:67-69 | the object is appended after the existing ones; the lights are unchanged |
| Scenes.AddLight | Scene.h:72-74 | the light is appended after the existing ones; the objects are unchanged |
| Scenes.Scan | Scene.h:80-92 | after any prefix of the objects, either no object has hit and the outputs are untouched, or the recorded object is the first nearest hit, with its hit point and its distance from the ray origin |
| Scenes.RayIntersection | Scene.h:77-95 | with no hit, the code is 0 and the outputs are untouched; otherwise the object is the first nearest hit, the point is its hit point and the code is minus its distance from the origin |
| Scenes.FirstNearestUnique | Scene.h:85 | the first nearest hit is unique: ties go to the earlier object |
| Scenes.NegativeCodeHasObject | Scene.h:94 | a negative code always comes with an object of the scene |
| Scenes.HitCodeSign | Scene.h:94 | a hit gives a code of at most 0, equal to 0 exactly when the hit point is the ray origin |
| Scenes.AddMissedObject | Scene.h:82 | adding an object the ray misses changes no query |
| Scenes.AddFartherObject | Scene.h:85 | adding an object hit no nearer than the current answer changes no query |
| Scenes.AddNearerObject | Scene.h:85-89 | adding an object hit strictly nearer than every hit object makes it the answer |
| Optics.Reflect | Renderer.h:217-219 | `reflect`; stated by `Optics.ReflectNormalComponent`, `Optics.ReflectInvolution` and `Optics.ReflectIsometry` |
| Optics.RefractionRay | Renderer.h:222-248 | the ray leaves from `p` moved a hundredth of its direction, with depth one less, along the refracted direction; the direction itself is stated by `Optics.Snell`, `Optics.RefractedIsUnit`, `Optics.RefractedCrossesSurface` and `Optics.TotalInternalReflection` |
| Optics.ReflectNormalComponent | Renderer.h:217-219 | reflection about a unit normal negates the normal component |
| Optics.ReflectInvolution | Renderer.h:217-219 | reflecting twice about a unit normal gives back the vector |
| Optics.ReflectIsometry | Renderer.h:217-219 | reflection keeps the length and the tangential component |
| Optics.RefractedIsUnit | Renderer.h:222-243 | for unit direction and normal, the refracted (or totally reflected) direction is a unit vector |
| Optics.Snell | Renderer.h:224-238 | Snell's law: the tangential component of the refracted direction is the incident one scaled by the index ratio, chosen by the sign of `direction·N` |
| Optics.RefractedCrossesSurface | Renderer.h:231-238 | the refracted direction's normal component is `∓sqrt(alpha)`, on the same side of the surface as the incident direction's |
| Optics.TotalInternalReflection | Renderer.h:240-245 | when `r²(1−c²) > 1`, the ray leaves along the mirror direction, offset by a hundredth of it, with depth one less |
| Optics.HeadOnRefraction | Renderer.h:224-238 | a ray meeting the surface head-on passes straight through whatever the indices |
| Backgrounds.BasicBackground | Renderer.h:53-70 | `BasicBackground::backgroundColor`; stated by `Backgrounds.SkyColor`, `Backgrounds.BasicBackgroundRange`, `Backgrounds.FarGroundIsWhite`, `Backgrounds.ShadePeriodic` and `Backgrounds.ShadeAlternates` |
| Backgrounds.SkyColor | Renderer.h:55-56 | an upward ray of height `z` sees the colour `(1−z, 1−z, 1)`, in range |
| Backgrounds.BasicBackgroundRange | Renderer.h:53-70 | every background colour is in [0, 1]; the ground is a grey of at least 0.2 |
| Backgrounds.FadeWeight | Renderer.h:61 | the weight of white is in [0, 1] and is 1 from distance 30 on |
| Backgrounds.FarGroundIsWhite | Renderer.h:58-67 | ground points 30 or more away are pure white |
| Backgrounds.ShadePeriodic | Renderer.h:62-67 | the checkerboard repeats with period 1 along both axes |
| Backgrounds.ShadeAlternates | Renderer.h:62-67 | a half-unit step along either axis flips the tile shade |
| Renderers.Background | Renderer.h:144-156 | `Renderer::background`; stated by `Renderers.BackgroundWithoutGlow`, `Renderers.DefaultSky`, `Renderers.GlowsNonNegative` and `Renderers.BackgroundNonNegative` |
| Renderers.BackgroundWithoutGlow | Renderer.h:144-156 | with no light within the glow cone, the background is the backdrop's colour, or black without one |
| Renderers.DefaultSky | Renderer.h:144-156 | with the basic backdrop and no lights, an upward ray sees `(1−z, 1−z, 1)` |
| Renderers.GlowsNonNegative | Renderer.h:146-153 | glows of lights of non-negative colour are non-negative |
| Renderers.BackgroundNonNegative | Renderer.h:144-156 | with non-negative light colours and backdrop, the background is non-negative on every channel |
| Renderers.ShadowWalk | Renderer.h:255-273 | the shadow walk keeps its direction and stops only when the light is below 0.003, the iteration bound runs out or the next query misses |
| Renderers.Shadow | Renderer.h:255-273 | `Renderer::shadow`, the light colour where the walk stops; stated by `Renderers.ShadowWalk`, `Renderers.ShadowUnblocked`, `Renderers.OpaqueOccluder` and `Renderers.ShadowAttenuates` |
| Renderers.ShadowUnblocked | Renderer.h:260-271 | a light whose first step meets nothing reaches the point unchanged |
| Renderers.OpaqueOccluder | Renderer.h:260-270 | a bright light whose first occluder has `coef_refraction` 0 is fully blocked |
| Renderers.ShadowAttenuates | Renderer.h:260-271 | when every material attenuates, the light after the shadow walk is non-negative and never brighter on any channel |
| Renderers.Illumination | Renderer.h:190-214 | `Renderer::illumination`; stated by `Renderers.IlluminationWithoutLights`, `Renderers.AddLightIllumination`, `Renderers.LightBehind` and `Renderers.IlluminationAboveAmbient` |
| Renderers.IlluminationWithoutLights | Renderer.h:190-214 | with no lights, the illumination is the ambient colour |
| Renderers.AddLightIllumination | Renderer.h:194-209 | adding a light adds exactly its own term to the illumination |
| Renderers.LightBehind | Renderer.h:196-208 | a light behind the surface and off the mirror direction contributes nothing |
| Renderers.IlluminationAboveAmbient | Renderer.h:190-214 | with non-negative lights and materials, the illumination is at least the ambient colour on every channel |
| Renderers.Trace | Renderer.h:160-187 | `Renderer::trace`; stated by `Renderers.TraceMiss`, `Renderers.HitAtOriginIsBackground`, `Renderers.TraceAtDepthZero`, `Renderers.TraceWeights`, `Renderers.Mirror` and `Renderers.TraceNonNegative` |
| Renderers.TraceMiss | Renderer.h:167-169 | a ray that hits nothing gets the background colour |
| Renderers.HitAtOriginIsBackground | Renderer.h:167-169 | a ray whose nearest hit is its own origin gets the background colour |
| Renderers.TraceAtDepthZero | Renderer.h:170-186 | at depth 0 no secondary ray is traced: the colour is the unscaled illumination |
| Renderers.TraceWeights | Renderer.h:170-186 | with depth left, the colour is reflected × specular × `coef_reflexion` + refracted × diffuse × `coef_refraction` + illumination × `coef_diffusion` |
| Renderers.SecondaryRays | Renderer.h:171-178 | the reflected ray starts at the ray origin with the default depth minus one; the refracted ray starts a hundredth of its direction past `p`, with depth two less |
| Renderers.GrazingMirrorRepeats | Renderer.h:170-172 | where the direction is perpendicular to the normal, the mirror ray is the traced ray with depth `defaultDepth - 1`, and is the traced ray itself when that is its depth |
| Renderers.Mirror | Renderer.h:170-186 | a perfect mirror (reflexion 1, refraction 0, diffusion 0, white specular) shows exactly what the reflected ray sees |
| Renderers.TraceNonNegative | Renderer.h:160-187 | in a physical scene (non-negative light, material and backdrop colours and coefficients, attenuating occluders), the traced colour is non-negative on every channel at every depth |
| Renderers.Normalize | Renderer.h:128-129 | normalising gives a unit vector that scales back to the input |
| Renderers.Render | Renderer.h:120-139 | the image has `height` rows of `width` pixels, so it is empty for an empty viewport; each pixel is the clamped colour traced along its eye ray, in [0, 1] |
| Renderers.Corners | Renderer.h:123-132 | the four corner pixels look along the normalised corner directions |
| Renderers.RowEnds | Renderer.h:126-132 | the first and last pixels of a row look along its normalised edge directions |
| Renderers.PixelDirection | Renderer.h:124-132 | the eye-ray direction of a pixel; stated by `Renderers.Corners`, `Renderers.RowEnds` and `Renderers.PixelDirectionLength` |
| Renderers.PixelDirectionLength | Renderer.h:126-132 | every eye-ray direction has length at most 1 (a blend of two unit vectors) |
| ShortEyeRays.MiddleRayMisses | Renderer.h:124-133 | in a three-pixel row from (0.6, 0, −0.8) to (−0.6, 0, −0.8) seen from (0, 0, 5), the middle eye ray looks along (0, 0, −0.8), the unit sphere at the origin gives it the code 2.24, a miss, and its point at t = 5 is on that sphere |
| ShortEyeRays.MiddleRayShowsBackground | Renderer.h:131-134 | with that sphere alone in the scene, `trace` gives that eye ray the background colour |
| Geometry.DistanceZeroIff | Scene.h:84 | distances are non-negative and zero only between equal points |

## Left out

- The progress bar (`progressBar`, Renderer.h:17-46) and the console messages of `render`: output only.
- The `Image2D` buffer of `render`: modelled as a sequence of rows.
- The renderer's setters and `Scene::init`, `draw` and `light`, the scene destructor, `Sphere::draw` and `Sphere::localize`, and ray-tracer.cpp: these are OpenGL display, memory management and program set-up, not rendering.
- PointVector.h, Color.h, Ray.h, Material.h, Light.h, GraphicalObject.h, and Image2D.h are not part of this model. Their operations are declared here with the meaning the renderer uses. `Color::clamp` is taken to clamp each channel to [0, 1].
- Floating point: everything is over exact reals. The `(float)` casts and rounding are not modelled. The 0.01 offset of the refracted origin is modelled (`Optics.RefractionRay`, `Renderers.SecondaryRays`), but its purpose, keeping the new ray clear of rounding error at the surface, has no counterpart over exact reals.
- `acos` and `powf` are uninterpreted. `sqrt` is constrained only by `ValidSqrt`.
- The depth Ray.h gives a ray built without one is a parameter of the renderer, `defaultDepth`. The Ray constructor is modelled as keeping the direction it is given, so the eye rays of `render` between the row ends are shorter than unit vectors, and spheres can be missed along them (`ShortEyeRays.MiddleRayMisses`). Ray.h is not part of this model; if its constructor normalises the direction, the rendered images differ from the model's for those pixels.
- Renderers.Trace: requires `defaultDepth <= 1`. Any ray with depth > 0 that hits a reflective object spawns a mirror ray of depth `defaultDepth - 1` (Renderer.h:170-172). With a default of 2 or more that depth is at least 1, so depth need not decrease along the recursion, and `trace` may not terminate in the code: a ray of that depth grazing a reflective object spawns itself (`Renderers.GrazingMirrorRepeats`). The model covers only the default depths for which termination holds.
- Objects.Index: refractive indices are restricted to positive reals, so that `refractionRay`'s divisions (Renderer.h:224, :229) are defined. The code divides with no guard; a material with a zero index is not modelled.
- Renderers.ShadowWalk: the `shadow` loop has no bound in the code. The model bounds it by `shadowFuel` iterations and returns the current light colour when they run out.
- Renderers.Nearest: the uninitialised `obj_i`/`p_i` outputs that `trace` and `shadow` pass to the scene query are modelled as no object and the zero point. The code reads them only after a hit, which sets them.
- Renderers.PixelDirection: requires a viewport of at least 2 × 2 pixels with non-zero edge directions. For a viewport 1 pixel high the code computes `ty` as 0/0 (Renderer.h:124), for one 1 pixel wide `tx` as 0/0 (Renderer.h:131), and with a zero edge direction it divides by a zero norm (Renderer.h:128-129); these give NaN directions in floating point, which exact reals do not have.
- Renderers.Render: requires non-negative dimensions, and a valid viewport unless the image is empty. An empty viewport, where `render`'s loops do not run, is modelled and gives an empty image; a 1-pixel-wide or 1-pixel-high viewport, or one with a zero edge direction, is not modelled (see `Renderers.PixelDirection`).
- Concurrency: the code is sequential and the model is pure.

=== FILE: backgrounds.dfy ===
/** `BasicBackground::backgroundColor`: a sky for rays going up (direction
    `z` in [0, 1]) and a grey checkerboard ground, fading to white with
    distance, for the others. */
module Backgrounds {
  import opened Basics
  import opened Geometry

  const Blue := Color(0.0, 0.0, 1.0)
  const DarkTile := Color(0.2, 0.2, 0.2)
  const LightTile := Color(0.4, 0.4, 0.4)

  /** Beyond this distance on the ground the checkerboard is pure white. */
  const FadeDistance: real := 30.0

  /** White plus `z` times the step from white to blue. */
  function Sky(z: real): Color {
    White.Plus(Blue.Minus(White).Scale(z))
  }

  /** `x - floor(x)`. */
  function Fraction(x: real): (f: real)
    ensures 0.0 <= f < 1.0
  {
    x - x.Floor as real
  }

  /** The tile shade of the ground point `(x, y)`: dark when both fractional
      parts are on the same side of one half. */
  function Shade(x: real, y: real): Color {
    var fx := Fraction(x);
    var fy := Fraction(y);
    if (fx >= 0.5 && fy >= 0.5) || (fx < 0.5 && fy < 0.5) then DarkTile else LightTile
  }

  /** Where a downward ray meets the ground plane, as `(x, y)` scaled by the
      height 0.5 of the eye above it. */
  function GroundX(d: Vec3): real
    requires d.z != 0.0
  {
    -0.5 * d.x / d.z
  }

  function GroundY(d: Vec3): real
    requires d.z != 0.0
  {
    -0.5 * d.y / d.z
  }

  /** The squared distance of that point from the foot of the eye. */
  function GroundDistance2(d: Vec3): real
    requires d.z != 0.0
  {
    GroundX(d) * GroundX(d) + GroundY(d) * GroundY(d)
  }

  function GroundDistance(m: MathLib, d: Vec3): real
    requires d.z != 0.0
  {
    m.sqrt(GroundDistance2(d))
  }

  /** The tile shade blended with white by the distance: the weight of white
      is the distance capped at 30, scaled to [0, 1]. */
  function Fade(shade: Color, dist: real): Color {
    var t := FadeWeight(dist);
    Black.Plus(shade.Scale(1.0 - t).Plus(White.Scale(t)))
  }

  /** The weight of white: the distance capped at 30, scaled to [0, 1]. */
  function FadeWeight(dist: real): (t: real)
    ensures 0.0 <= dist ==> 0.0 <= t <= 1.0
    ensures dist >= FadeDistance ==> t == 1.0
  {
    Min(dist, FadeDistance) / FadeDistance
  }

  /** `BasicBackground::backgroundColor`.  Away from the sky the ray is
      followed to the ground plane at height -0.5 below the origin; the tile
      shade is blended with white by the distance `t` (capped at 30, scaled
      to [0, 1]). */
  function BasicBackground(m: MathLib, ray: Ray): Color {
    var d := ray.direction;
    if d.z >= 0.0 && d.z <= 1.0 then
      Sky(d.z)
    else
      Fade(Shade(GroundX(d), GroundY(d)), GroundDistance(m, d))
  }

  /** For an upward direction the colour is `(1 - z, 1 - z, 1)`, each
      channel in [0, 1]. */
  lemma SkyColor(m: MathLib, ray: Ray)
    requires 0.0 <= ray.direction.z <= 1.0
    ensures var z := ray.direction.z;
            BasicBackground(m, ray) == Color(1.0 - z, 1.0 - z, 1.0)
    ensures BasicBackground(m, ray).Within(0.0, 1.0)
  {
  }

  /** With a real `sqrt` every channel of the background is in [0, 1]; on
      the ground it is a grey between 0.2 and 1. */
  lemma BasicBackgroundRange(m: MathLib, ray: Ray)
    requires ValidSqrt(m)
    ensures BasicBackground(m, ray).Within(0.0, 1.0)
    ensures !(0.0 <= ray.direction.z <= 1.0) ==>
              var c := BasicBackground(m, ray);
              c.r == c.g == c.b && 0.2 <= c.r
  {
    var d := ray.direction;
    if !(d.z >= 0.0 && d.z <= 1.0) {
      var x := GroundX(d);
      var y := GroundY(d);
      assert 0.0 <= x * x && 0.0 <= y * y;
      SqrtSpec(m, GroundDistance2(d));
      FadeRange(Shade(x, y), GroundDistance(m, d));
    }
  }

  lemma FadeRange(s: Color, dist: real)
    requires 0.2 <= s.r <= 0.4 && s.r == s.g == s.b
    requires 0.0 <= dist
    ensures var c := Fade(s, dist);
            c.Within(0.2, 1.0) && c.r == c.g == c.b
  {
    var t := FadeWeight(dist);
    var k := 0.0 + ((1.0 - t) * s.r + t * 1.0);
    BlendRange(s.r, t);
    assert Fade(s, dist) == Color(k, k, k);
  }

  lemma BlendRange(s: real, t: real)
    requires 0.2 <= s <= 0.4 && 0.0 <= t <= 1.0
    ensures 0.2 <= 0.0 + ((1.0 - t) * s + t * 1.0) <= 1.0
  {
    assert (1.0 - t) * s + t * 1.0 == s + t * (1.0 - s);
    ScaleBetween(t, 1.0 - s);
  }

  lemma ScaleBetween(t: real, a: real)
    requires 0.0 <= t <= 1.0 && 0.0 <= a
    ensures 0.0 <= t * a <= a
  {
    assert a - t * a == (1.0 - t) * a;
  }

  /** Ground points at distance 30 or more are pure white. */
  lemma FarGroundIsWhite(m: MathLib, ray: Ray)
    requires !(0.0 <= ray.direction.z <= 1.0)
    requires GroundDistance(m, ray.direction) >= FadeDistance
    ensures BasicBackground(m, ray) == White
  {
    var d := ray.direction;
    GroundIsFade(m, ray);
    FadeFar(Shade(GroundX(d), GroundY(d)), GroundDistance(m, d));
  }

  lemma GroundIsFade(m: MathLib, ray: Ray)
    requires !(0.0 <= ray.direction.z <= 1.0)
    ensures var d := ray.direction;
            BasicBackground(m, ray) == Fade(Shade(GroundX(d), GroundY(d)), GroundDistance(m, d))
  {
  }

  lemma FadeFar(s: Color, dist: real)
    requires dist >= FadeDistance
    ensures Fade(s, dist) == White
  {
  }

  /** The ground tiles repeat with period 1 along both axes... */
  lemma ShadePeriodic(x: real, y: real)
    ensures Shade(x + 1.0, y) == Shade(x, y)
    ensures Shade(x, y + 1.0) == Shade(x, y)
  {
    assert (x + 1.0).Floor == x.Floor + 1;
    assert (y + 1.0).Floor == y.Floor + 1;
  }

  /** ... and alternate every half unit: a dark tile is next to a light one. */
  lemma ShadeAlternates(x: real, y: real)
    ensures Shade(x + 0.5, y) != Shade(x, y)
    ensures Shade(x, y + 0.5) != Shade(x, y)
  {
    HalfStep(x);
    HalfStep(y);
  }

  /** Moving by one half flips which side of one half the fractional part is on. */
  lemma HalfStep(x: real)
    ensures Fraction(x + 0.5) >= 0.5 <==> Fraction(x) < 0.5
  {
    var f := Fraction(x);
    if f < 0.5 {
      assert (x + 0.5).Floor == x.Floor;
    } else {
      assert (x + 0.5).Floor == x.Floor + 1;
    }
  }
}

=== FILE: basics.dfy ===
/** Shared vocabulary of the ray tracer model: an option type, the two
    comparison helpers of the C++ standard library, and the functions of the
    C maths library that the renderer calls.  */
module Basics {

  datatype Option<+T> = None | Some(value: T)

  /** The C maths library as the renderer uses it: `sqrt`, `acos` and `powf`.
      They are given, not computed; only `sqrt` is constrained, by ValidSqrt. */
  datatype MathLib = MathLib(sqrt: real -> real, acos: real -> real, pow: (real, real) -> real)

  /** Marks the arguments at which the axiom of `sqrt` is used, so that the
      verifier instantiates it only where a proof asks for it (SqrtSpec). */
  predicate SqrtAt(x: real) {
    true
  }

  /** `sqrt` returns the non-negative square root of every non-negative real. */
  ghost predicate ValidSqrt(m: MathLib) {
    forall x {:trigger SqrtAt(x)} :: SqrtAt(x) && 0.0 <= x ==> 0.0 <= m.sqrt(x) && m.sqrt(x) * m.sqrt(x) == x
  }

  lemma SqrtSpec(m: MathLib, x: real)
    requires ValidSqrt(m) && 0.0 <= x
    ensures 0.0 <= m.sqrt(x) && m.sqrt(x) * m.sqrt(x) == x
  {
    assert SqrtAt(x);
  }

  /** `powf` of a non-negative base is non-negative. */
  ghost predicate ValidPow(m: MathLib) {
    forall x, e :: 0.0 <= x ==> 0.0 <= m.pow(x, e)
  }

  /** `std::min(a, b)`: returns `b` only when it is strictly smaller. */
  function Min(a: real, b: real): (r: real)
    ensures r <= a && r <= b && (r == a || r == b)
  {
    if b < a then b else a
  }

  /** `std::max(a, b)`: returns `b` only when `a` is strictly smaller. */
  function Max(a: real, b: real): (r: real)
    ensures a <= r && b <= r && (r == a || r == b)
  {
    if a < b then b else a
  }

  /** `M_PI`, as an exact constant. */
  const Pi: real := 3.14159265358979323846

  /** A non-negative number is the square root of its own square. */
  lemma SqrtOfSquare(m: MathLib, x: real, t: real)
    requires ValidSqrt(m)
    requires 0.0 <= t && x == t * t
    ensures m.sqrt(x) == t
  {
    var s := m.sqrt(x);
    assert 0.0 <= x;
    SqrtSpec(m, x);
    assert 0.0 <= s && s * s == t * t;
    assert (s - t) * (s + t) == 0.0;
    if s + t == 0.0 {
      assert s == 0.0 && t == 0.0;
    } else {
      ZeroProduct(s - t, s + t);
    }
  }

  /** A square root is zero exactly for zero. */
  lemma SqrtZeroIff(m: MathLib, x: real)
    requires ValidSqrt(m) && 0.0 <= x
    ensures 0.0 <= m.sqrt(x)
    ensures m.sqrt(x) == 0.0 <==> x == 0.0
  {
    if x == 0.0 {
      SqrtOfSquare(m, x, 0.0);
    } else {
      SqrtPositive(m, x);
    }
  }

  /** A square root of a positive number is positive. */
  lemma SqrtPositive(m: MathLib, x: real)
    requires ValidSqrt(m)
    requires 0.0 < x
    ensures 0.0 < m.sqrt(x)
  {
    SqrtSpec(m, x);
  }

  lemma ZeroProduct(a: real, b: real)
    requires a * b == 0.0
    ensures a == 0.0 || b == 0.0
  {
  }
}

=== FILE: eye_rays.dfy ===
/** A worked example of the eye rays of Renderer.h's `render`: the rays
    between the row ends are not unit vectors, and `Sphere::rayIntersection`
    (Sphere.cpp) measures its gap only along a unit direction, so a sphere
    straight ahead of the camera can be missed. */
module ShortEyeRays {
  import opened Basics
  import opened Geometry
  import opened Objects
  import opened Scenes
  import opened Renderers
  import Spheres

  /** The eye rays of `render` are not unit vectors between the row ends,
      and `Sphere::rayIntersection` finds the perpendicular from the centre
      only along a unit direction.  So a sphere straight ahead can be missed:
      with the top row running from (0.6, 0, -0.8) to (-0.6, 0, -0.8) over
      three pixels, the middle pixel looks along (0, 0, -0.8).  Seen from
      (0, 0, 5), the unit sphere at the origin gives the code 2.24, a miss,
      although the ray meets it at t = 5; with that sphere alone in the
      scene, the pixel shows the background. */
  lemma MiddleRayMisses(rd: Renderer, maxDepth: int, mat: Material)
    requires ValidViewport(rd) && rd.width == 3 && rd.defaultDepth <= 1
    requires rd.dirUL == Vec3(0.6, 0.0, -0.8) && rd.dirUR == Vec3(-0.6, 0.0, -0.8)
    requires rd.origin == Vec3(0.0, 0.0, 5.0)
    requires rd.scene.objects == [Spheres.AsObject(rd.math, Spheres.Sphere(Origin, 1.0, mat))]
    ensures EyeRay(rd, 1, 0, maxDepth).direction == Vec3(0.0, 0.0, -0.8)
    ensures Spheres.RayIntersection(rd.math, Spheres.Sphere(Origin, 1.0, mat), EyeRay(rd, 1, 0, maxDepth)).code == 2.24
    ensures Spheres.OnSphere(Spheres.Sphere(Origin, 1.0, mat), Spheres.At(EyeRay(rd, 1, 0, maxDepth), 5.0))
  {
    MiddleOfTopRow(rd);
    Spheres.ShortDirectionMiss(rd.math, Spheres.Sphere(Origin, 1.0, mat), EyeRay(rd, 1, 0, maxDepth));
  }

  /** So `trace` gives that eye ray the background. */
  lemma MiddleRayShowsBackground(rd: Renderer, maxDepth: int, mat: Material, ray: Ray)
    requires ValidViewport(rd) && rd.width == 3 && rd.defaultDepth <= 1
    requires rd.dirUL == Vec3(0.6, 0.0, -0.8) && rd.dirUR == Vec3(-0.6, 0.0, -0.8)
    requires rd.origin == Vec3(0.0, 0.0, 5.0)
    requires rd.scene.objects == [Spheres.AsObject(rd.math, Spheres.Sphere(Origin, 1.0, mat))]
    requires ray == EyeRay(rd, 1, 0, maxDepth)
    ensures Trace(rd, ray) == Background(rd, ray)
  {
    MiddleRayMisses(rd, maxDepth, mat);
    LoneSphereMissed(rd, ray, Spheres.Sphere(Origin, 1.0, mat));
  }

  /** A ray that misses the only sphere of the scene gets the background. */
  lemma LoneSphereMissed(rd: Renderer, ray: Ray, s: Spheres.Sphere)
    requires rd.defaultDepth <= 1 && ValidSqrt(rd.math)
    requires rd.scene.objects == [Spheres.AsObject(rd.math, s)]
    requires Spheres.RayIntersection(rd.math, s, ray).code > 0.0
    ensures Trace(rd, ray) == Background(rd, ray)
  {
    assert rd.scene.objects[0].intersect(ray) == Spheres.RayIntersection(rd.math, s, ray);
    assert NoHit(rd.scene.objects, ray, 1);
    TraceMiss(rd, ray);
  }

  /** The middle pixel of a three-pixel top row from (0.6, 0, -0.8) to
      (-0.6, 0, -0.8) looks along (0, 0, -0.8). */
  lemma MiddleOfTopRow(rd: Renderer)
    requires ValidViewport(rd) && rd.width == 3
    requires rd.dirUL == Vec3(0.6, 0.0, -0.8) && rd.dirUR == Vec3(-0.6, 0.0, -0.8)
    ensures PixelDirection(rd, 1, 0) == Vec3(0.0, 0.0, -0.8)
  {
    EdgeEnds(rd);
    UnitNormalizes(rd.math, rd.dirUL);
    UnitNormalizes(rd.math, rd.dirUR);
    assert ColumnFraction(rd, 1) == 0.5;
    assert Lerp(Vec3(0.6, 0.0, -0.8), Vec3(-0.6, 0.0, -0.8), 0.5) == Vec3(0.0, 0.0, -0.8);
  }
}

=== FILE: geometry.dfy ===
/** Points, vectors, colours and rays, over exact reals.  The headers that
    define them in the ray tracer (PointVector.h, Color.h, Ray.h) are not part
    of this model; only the operations the renderer uses are declared here. */
module Geometry {
  import opened Basics

  /** A point or a vector of 3-space. */
  datatype Vec3 = Vec3(x: real, y: real, z: real) {

    function Plus(v: Vec3): Vec3 {
      Vec3(x + v.x, y + v.y, z + v.z)
    }

    function Minus(v: Vec3): Vec3 {
      Vec3(x - v.x, y - v.y, z - v.z)
    }

    /** `k * v` and `v * k`. */
    function Scale(k: real): Vec3 {
      Vec3(k * x, k * y, k * z)
    }

    /** `v / k`. */
    function Div(k: real): Vec3
      requires k != 0.0
    {
      Vec3(x / k, y / k, z / k)
    }

    function Dot(v: Vec3): real {
      x * v.x + y * v.y + z * v.z
    }

    /** The squared length. */
    function Norm2(): real {
      Dot(this)
    }
  }

  const Origin := Vec3(0.0, 0.0, 0.0)

  predicate IsUnit(v: Vec3) {
    v.Norm2() == 1.0
  }

  /** `v.norm()`. */
  function Norm(m: MathLib, v: Vec3): real {
    m.sqrt(v.Norm2())
  }

  /** `rt::distance(a, b)`: the length of `b - a`. */
  function Distance(m: MathLib, a: Vec3, b: Vec3): real {
    Norm(m, b.Minus(a))
  }

  /** An RGB colour in arithmetic range (not clamped). */
  datatype Color = Color(r: real, g: real, b: real) {

    function Plus(c: Color): Color {
      Color(r + c.r, g + c.g, b + c.b)
    }

    function Minus(c: Color): Color {
      Color(r - c.r, g - c.g, b - c.b)
    }

    /** Channel-wise product `c1 * c2`. */
    function Mul(c: Color): Color {
      Color(r * c.r, g * c.g, b * c.b)
    }

    /** `k * c` and `c * k`. */
    function Scale(k: real): Color {
      Color(k * r, k * g, k * b)
    }

    /** `c.max()`: the largest channel. */
    function Max(): (m: real)
      ensures r <= m && g <= m && b <= m
      ensures m == r || m == g || m == b
    {
      Basics.Max(Basics.Max(r, g), b)
    }

    /** `c.clamp()`: every channel brought into [0, 1]; a colour already in
        range is unchanged. */
    function Clamp(): (c: Color)
      ensures c.Within(0.0, 1.0)
      ensures Within(0.0, 1.0) ==> c == this
    {
      Color(ClampUnit(r), ClampUnit(g), ClampUnit(b))
    }

    /** Every channel at most the matching channel of `c`. */
    predicate Below(c: Color) {
      r <= c.r && g <= c.g && b <= c.b
    }

    predicate NonNegative() {
      0.0 <= r && 0.0 <= g && 0.0 <= b
    }

    /** Every channel in [lo, hi]. */
    predicate Within(lo: real, hi: real) {
      lo <= r <= hi && lo <= g <= hi && lo <= b <= hi
    }
  }

  /** One channel of `Color::clamp`. */
  function ClampUnit(x: real): real {
    if x < 0.0 then 0.0 else if x > 1.0 then 1.0 else x
  }

  const Black := Color(0.0, 0.0, 0.0)
  const White := Color(1.0, 1.0, 1.0)

  /** A ray: origin, direction and the remaining recursion budget `depth`. */
  datatype Ray = Ray(origin: Vec3, direction: Vec3, depth: int)

  /** The recursion budget a ray still has: its depth when positive. */
  function Budget(depth: int): nat {
    if depth > 0 then depth as nat else 0
  }

  /** The square of `a + t*d` expands as a quadratic in `t`. */
  lemma Norm2OfRay(a: Vec3, d: Vec3, t: real)
    ensures a.Plus(d.Scale(t)).Norm2() == a.Norm2() + 2.0 * t * a.Dot(d) + t * t * d.Norm2()
  {
    SquareOfSum(a.x, d.x, t);
    SquareOfSum(a.y, d.y, t);
    SquareOfSum(a.z, d.z, t);
  }

  lemma SquareOfSum(a: real, d: real, t: real)
    ensures (a + t * d) * (a + t * d) == a * a + 2.0 * t * (a * d) + t * t * (d * d)
  {
  }

  lemma SquareNonNegative(x: real)
    ensures 0.0 <= x * x
  {
  }

  lemma MinusZero(p: Vec3, c: Vec3)
    ensures p.Minus(c) == Origin <==> p == c
  {
  }

  lemma UnitNonZero(d: Vec3)
    requires IsUnit(d)
    ensures d != Origin
  {
  }

  lemma ScaleNonZero(d: Vec3, k: real)
    requires d != Origin && k != 0.0
    ensures d.Scale(k) != Origin
  {
    if d.Scale(k) == Origin {
      ZeroProduct(k, d.x);
      ZeroProduct(k, d.y);
      ZeroProduct(k, d.z);
    }
  }

  lemma ScaleCancel(a: Vec3, b: Vec3, r: real)
    requires r != 0.0 && a.Scale(r) == b.Scale(r)
    ensures a == b
  {
  }

  /** A unit vector scaled by `k >= 0` has length `k`. */
  lemma NormOfScaledUnit(m: MathLib, d: Vec3, k: real)
    requires ValidSqrt(m) && IsUnit(d) && 0.0 <= k
    ensures Norm(m, d.Scale(k)) == k
  {
    var u := d.Scale(k);
    assert u.Norm2() == k * k * d.Norm2();
    SqrtOfSquare(m, u.Norm2(), k);
  }

  /** The squared length of a vector is zero only for the zero vector. */
  lemma Norm2ZeroIff(v: Vec3)
    ensures 0.0 <= v.Norm2()
    ensures v.Norm2() == 0.0 <==> v == Origin
  {
    assert 0.0 <= v.x * v.x && 0.0 <= v.y * v.y && 0.0 <= v.z * v.z;
    if v.Norm2() == 0.0 {
      assert v.x * v.x == 0.0 && v.y * v.y == 0.0 && v.z * v.z == 0.0;
      ZeroProduct(v.x, v.x);
      ZeroProduct(v.y, v.y);
      ZeroProduct(v.z, v.z);
    }
  }

  /** Distances are non-negative and zero only between equal points. */
  lemma DistanceZeroIff(m: MathLib, a: Vec3, b: Vec3)
    requires ValidSqrt(m)
    ensures 0.0 <= Distance(m, a, b)
    ensures Distance(m, a, b) == 0.0 <==> a == b
  {
    var v := b.Minus(a);
    Norm2ZeroIff(v);
    MinusZero(b, a);
    SqrtZeroIff(m, v.Norm2());
  }

  /** Dividing by the length of a non-zero vector gives a unit vector. */
  lemma DivByNormIsUnit(m: MathLib, v: Vec3)
    requires ValidSqrt(m)
    requires v != Origin
    ensures Norm(m, v) > 0.0
    ensures IsUnit(v.Div(Norm(m, v)))
    ensures v.Div(Norm(m, v)).Scale(Norm(m, v)) == v
  {
    Norm2ZeroIff(v);
    var l2 := v.Norm2();
    var s := m.sqrt(l2);
    SqrtPositive(m, l2);
    SqrtSpec(m, l2);
    var u := v.Div(s);
    var k := 1.0 / (s * s);
    DivSquare(v.x, s);
    DivSquare(v.y, s);
    DivSquare(v.z, s);
    assert u.Norm2() == k * (v.x * v.x) + k * (v.y * v.y) + k * (v.z * v.z);
    assert u.Norm2() == k * l2;
    assert k * (s * s) == 1.0;
    DivScale(v.x, s);
    DivScale(v.y, s);
    DivScale(v.z, s);
  }

  lemma DivScale(a: real, s: real)
    requires s != 0.0
    ensures s * (a / s) == a
  {
  }

  lemma DivSquare(a: real, s: real)
    requires s != 0.0
    ensures (a / s) * (a / s) == (1.0 / (s * s)) * (a * a)
  {
    var q := a / s;
    assert q * s == a;
    assert (q * q) * (s * s) == a * a;
  }
}

=== FILE: objects.dfy ===
/** The capabilities the renderer consumes: materials, graphical objects and
    lights.  Material.h, GraphicalObject.h and Light.h are not part of this
    model; an object and a light are each the record of the functions the
    renderer calls on them, so any variant (a sphere, a point light, ...) is a
    value of these types. */
module Objects {
  import opened Geometry

  /** A refractive index: a strictly positive real. */
  type Index = x: real | x > 0.0 witness 1.0

  /** How a surface scatters light. */
  datatype Material = Material(
    ambient: Color,
    diffuse: Color,
    specular: Color,
    shinyness: real,
    coef_diffusion: real,
    coef_reflexion: real,
    coef_refraction: real,
    in_refractive_index: Index,
    out_refractive_index: Index)

  /** What `GraphicalObject::rayIntersection` reports: the signed code it
      returns (a hit when `code <= 0`) and the point it writes. */
  datatype Intersection = Intersection(code: real, point: Vec3)

  /** A graphical object, as its three virtual methods. */
  datatype Object = Object(
    intersect: Ray -> Intersection,
    normal: Vec3 -> Vec3,
    material: Vec3 -> Material)

  /** A light source, as the two virtual methods the renderer calls:
      the unit direction towards the light from a point, and its colour there. */
  datatype Light = Light(
    direction: Vec3 -> Vec3,
    color: Vec3 -> Color)
}

=== FILE: optics.dfy ===
/** The two direction formulas of `Renderer`: the mirror `reflect` and the
    refracted ray `refractionRay`, with Snell's law as their partner. */
module Optics {
  import opened Basics
  import opened Geometry
  import opened Objects

  /** `Renderer::reflect`: `W - 2 (W.N) N`. */
  function Reflect(w: Vec3, n: Vec3): Vec3 {
    w.Minus(n.Scale(2.0 * w.Dot(n)))
  }

  /** `Renderer::refractionRay`'s index ratio: `in/out`, replaced by `out/in`
      when the direction does not point along the normal. */
  function Ratio(d: Vec3, n: Vec3, mat: Material): real {
    if d.Dot(n) <= 0.0 then mat.out_refractive_index / mat.in_refractive_index
    else mat.in_refractive_index / mat.out_refractive_index
  }

  /** `c = -N.direction`, the cosine of the incidence angle for unit vectors. */
  function Cosine(d: Vec3, n: Vec3): real {
    -1.0 * n.Dot(d)
  }

  /** `alpha = 1 - r^2 (1 - c^2)`: the squared cosine of the refracted angle,
      negative under total internal reflection. */
  function Alpha(d: Vec3, n: Vec3, mat: Material): real {
    var r := Ratio(d, n, mat);
    var c := Cosine(d, n);
    1.0 - (r * r) * (1.0 - c * c)
  }

  /** The coefficient of `N` in the refracted direction: `r c - sqrt(alpha)`
      when `c > 0`, `r c + sqrt(alpha)` otherwise. */
  function NormalWeight(m: MathLib, d: Vec3, n: Vec3, mat: Material): real {
    var r := Ratio(d, n, mat);
    var c := Cosine(d, n);
    if c > 0.0 then r * c - m.sqrt(Alpha(d, n, mat))
    else r * c + m.sqrt(Alpha(d, n, mat))
  }

  /** The direction `refractionRay` gives its ray: `r d + tmp N`, or the
      mirror direction when `alpha < 0`. */
  function RefractedDirection(m: MathLib, d: Vec3, n: Vec3, mat: Material): Vec3 {
    if Alpha(d, n, mat) < 0.0 then Reflect(d, n)
    else d.Scale(Ratio(d, n, mat)).Plus(n.Scale(NormalWeight(m, d, n, mat)))
  }

  /** `Renderer::refractionRay`: the refracted ray leaves from `p` moved
      by a hundredth of its direction, with depth one less than `aRay`. */
  function RefractionRay(m: MathLib, ray: Ray, p: Vec3, n: Vec3, mat: Material): (r: Ray)
    ensures r.direction == RefractedDirection(m, ray.direction, n, mat)
    ensures r.origin.Minus(p) == r.direction.Scale(0.01)
    ensures r.depth == ray.depth - 1
  {
    var v := RefractedDirection(m, ray.direction, n, mat);
    Ray(p.Plus(v.Scale(0.01)), v, ray.depth - 1)
  }

  /** The component of `v` orthogonal to the unit normal `n`. */
  function Tangential(v: Vec3, n: Vec3): Vec3 {
    v.Minus(n.Scale(v.Dot(n)))
  }

  // ---------------------------------------------------------------------
  // Vector algebra used below

  lemma DotSymmetric(a: Vec3, b: Vec3)
    ensures a.Dot(b) == b.Dot(a)
  {
  }

  /** `(a + t b).n = a.n + t (b.n)`. */
  lemma DotOfCombination(a: Vec3, b: Vec3, t: real, n: Vec3)
    ensures a.Plus(b.Scale(t)).Dot(n) == a.Dot(n) + t * b.Dot(n)
  {
    assert (a.x + t * b.x) * n.x == a.x * n.x + t * (b.x * n.x);
    assert (a.y + t * b.y) * n.y == a.y * n.y + t * (b.y * n.y);
    assert (a.z + t * b.z) * n.z == a.z * n.z + t * (b.z * n.z);
  }

  /** `a.(s b) = s (a.b)`. */
  lemma DotScale(a: Vec3, b: Vec3, s: real)
    ensures a.Dot(b.Scale(s)) == s * a.Dot(b)
    ensures a.Scale(s).Dot(b) == s * a.Dot(b)
  {
  }

  lemma MinusIsPlusNegated(a: Vec3, b: Vec3, t: real)
    ensures a.Minus(b.Scale(t)) == a.Plus(b.Scale(-t))
  {
  }

  /** `|s a + t b|^2 = s^2 |a|^2 + 2 s t (a.b) + t^2 |b|^2`. */
  lemma Norm2OfCombination(a: Vec3, b: Vec3, s: real, t: real)
    ensures a.Scale(s).Plus(b.Scale(t)).Norm2()
            == s * s * a.Norm2() + 2.0 * s * t * a.Dot(b) + t * t * b.Norm2()
  {
    SquareOfCombination(a.x, b.x, s, t);
    SquareOfCombination(a.y, b.y, s, t);
    SquareOfCombination(a.z, b.z, s, t);
  }

  lemma SquareOfCombination(a: real, b: real, s: real, t: real)
    ensures (s * a + t * b) * (s * a + t * b) == s * s * (a * a) + 2.0 * s * t * (a * b) + t * t * (b * b)
  {
  }

  // ---------------------------------------------------------------------
  // Reflection

  /** The mirror direction has the opposite normal component. */
  lemma ReflectNormalComponent(w: Vec3, n: Vec3)
    requires IsUnit(n)
    ensures Reflect(w, n).Dot(n) == -w.Dot(n)
  {
    var k := w.Dot(n);
    MinusIsPlusNegated(w, n, 2.0 * k);
    DotOfCombination(w, n, -(2.0 * k), n);
  }

  /** Reflecting twice about the same unit normal gives the vector back. */
  lemma ReflectInvolution(w: Vec3, n: Vec3)
    requires IsUnit(n)
    ensures Reflect(Reflect(w, n), n) == w
  {
    ReflectNormalComponent(w, n);
  }

  /** Reflection keeps the length and the tangential component. */
  lemma ReflectIsometry(w: Vec3, n: Vec3)
    requires IsUnit(n)
    ensures Reflect(w, n).Norm2() == w.Norm2()
    ensures Tangential(Reflect(w, n), n) == Tangential(w, n)
  {
    var k := w.Dot(n);
    MinusIsPlusNegated(w, n, 2.0 * k);
    Norm2OfRay(w, n, -(2.0 * k));
    assert 2.0 * -(2.0 * k) * k + -(2.0 * k) * -(2.0 * k) * 1.0 == 0.0;
    ReflectNormalComponent(w, n);
    var u := Reflect(w, n);
    assert u.Dot(n) == -k;
    TangentialComponent(w.x, n.x, k);
    TangentialComponent(w.y, n.y, k);
    TangentialComponent(w.z, n.z, k);
  }

  lemma TangentialComponent(wx: real, nx: real, k: real)
    ensures (wx - 2.0 * k * nx) - (-k) * nx == wx - k * nx
  {
  }

  // ---------------------------------------------------------------------
  // Refraction

  /** The quadratic `alpha` comes from: with `tmp = r c -+ sqrt(alpha)`,
      `r^2 - 2 r c tmp + tmp^2 = 1`. */
  lemma WeightIdentity(r: real, c: real, sq: real, alpha: real, tmp: real)
    requires alpha == 1.0 - (r * r) * (1.0 - c * c)
    requires sq * sq == alpha
    requires tmp == r * c - sq || tmp == r * c + sq
    ensures r * r - 2.0 * r * c * tmp + tmp * tmp == 1.0
  {
    var e := tmp - r * c;
    assert e * e == alpha;
    assert tmp * tmp - 2.0 * r * c * tmp == e * e - r * r * (c * c);
  }

  /** Without total internal reflection a unit direction refracts about a
      unit normal into a unit direction. */
  lemma RefractedIsUnit(m: MathLib, d: Vec3, n: Vec3, mat: Material)
    requires ValidSqrt(m) && IsUnit(d) && IsUnit(n)
    ensures IsUnit(RefractedDirection(m, d, n, mat))
  {
    var alpha := Alpha(d, n, mat);
    if alpha < 0.0 {
      ReflectIsometry(d, n);
    } else {
      var r := Ratio(d, n, mat);
      var c := Cosine(d, n);
      var tmp := NormalWeight(m, d, n, mat);
      SqrtSpec(m, alpha);
      DotSymmetric(d, n);
      Norm2OfCombination(d, n, r, tmp);
      assert d.Dot(n) == -c;
      WeightIdentity(r, c, m.sqrt(alpha), alpha, tmp);
    }
  }

  /** Snell's law in vector form: without total internal reflection the
      tangential part of the refracted direction is the incoming one scaled by
      the ratio, which is `out/in` when the direction does not point along the
      normal and `in/out` when it does. */
  lemma Snell(m: MathLib, d: Vec3, n: Vec3, mat: Material)
    requires IsUnit(n)
    requires 0.0 <= Alpha(d, n, mat)
    ensures var ratio := if d.Dot(n) <= 0.0 then mat.out_refractive_index / mat.in_refractive_index
                         else mat.in_refractive_index / mat.out_refractive_index;
            Tangential(RefractedDirection(m, d, n, mat), n) == Tangential(d, n).Scale(ratio)
  {
    TangentialOfCombination(d, n, Ratio(d, n, mat), NormalWeight(m, d, n, mat));
  }

  /** Adding a multiple of the unit normal leaves the tangential part alone. */
  lemma TangentialOfCombination(d: Vec3, n: Vec3, r: real, tmp: real)
    requires IsUnit(n)
    ensures Tangential(d.Scale(r).Plus(n.Scale(tmp)), n) == Tangential(d, n).Scale(r)
  {
    var v := d.Scale(r).Plus(n.Scale(tmp));
    var k := d.Dot(n);
    DotScale(d, n, r);
    DotOfCombination(d.Scale(r), n, tmp, n);
    assert v.Dot(n) == r * k + tmp;
    CombinationMinusNormal(d, n, r, tmp, k);
  }

  lemma CombinationMinusNormal(d: Vec3, n: Vec3, r: real, tmp: real, k: real)
    ensures d.Scale(r).Plus(n.Scale(tmp)).Minus(n.Scale(r * k + tmp)) == d.Minus(n.Scale(k)).Scale(r)
  {
    SnellComponent(r, d.x, tmp, n.x, k);
    SnellComponent(r, d.y, tmp, n.y, k);
    SnellComponent(r, d.z, tmp, n.z, k);
  }

  lemma SnellComponent(r: real, dx: real, tmp: real, nx: real, k: real)
    ensures (r * dx + tmp * nx) - (r * k + tmp) * nx == r * (dx - k * nx)
  {
  }

  /** The refracted direction leaves on the far side of the surface: its
      normal component is `-sqrt(alpha)` when the ray meets the surface
      against the normal and `+sqrt(alpha)` otherwise, so it never has the
      opposite sign of the incoming one. */
  lemma RefractedCrossesSurface(m: MathLib, d: Vec3, n: Vec3, mat: Material)
    requires ValidSqrt(m) && IsUnit(n)
    requires 0.0 <= Alpha(d, n, mat)
    ensures var v := RefractedDirection(m, d, n, mat);
            && (Cosine(d, n) > 0.0 ==> v.Dot(n) == -m.sqrt(Alpha(d, n, mat)))
            && (Cosine(d, n) <= 0.0 ==> v.Dot(n) == m.sqrt(Alpha(d, n, mat)))
            && 0.0 <= d.Dot(n) * v.Dot(n)
  {
    var r := Ratio(d, n, mat);
    var c := Cosine(d, n);
    var tmp := NormalWeight(m, d, n, mat);
    var v := d.Scale(r).Plus(n.Scale(tmp));
    var s := m.sqrt(Alpha(d, n, mat));
    SqrtSpec(m, Alpha(d, n, mat));
    DotScale(d, n, r);
    DotSymmetric(d, n);
    DotOfCombination(d.Scale(r), n, tmp, n);
    assert v.Dot(n) == r * d.Dot(n) + tmp;
    assert d.Dot(n) == -c;
    if c > 0.0 {
      assert v.Dot(n) == -s;
      assert d.Dot(n) < 0.0;
      ProductOfNonPositives(d.Dot(n), -s);
    } else {
      assert v.Dot(n) == s;
      ProductOfNonNegatives(d.Dot(n), s);
    }
  }

  lemma ProductOfNonPositives(a: real, b: real)
    requires a <= 0.0 && b <= 0.0
    ensures 0.0 <= a * b
  {
  }

  lemma ProductOfNonNegatives(a: real, b: real)
    requires 0.0 <= a && 0.0 <= b
    ensures 0.0 <= a * b
  {
  }

  /** Total internal reflection: when `r^2 (1 - c^2) > 1` the refracted ray
      is the mirror ray, still with depth one less and offset from `p`. */
  lemma TotalInternalReflection(m: MathLib, ray: Ray, p: Vec3, n: Vec3, mat: Material)
    requires var r := Ratio(ray.direction, n, mat);
             var c := Cosine(ray.direction, n);
             r * r * (1.0 - c * c) > 1.0
    ensures var out := RefractionRay(m, ray, p, n, mat);
            && out.direction == Reflect(ray.direction, n)
            && out.origin == p.Plus(Reflect(ray.direction, n).Scale(0.01))
            && out.depth == ray.depth - 1
  {
  }

  /** Head-on incidence passes straight through, whatever the indices. */
  lemma HeadOnRefraction(m: MathLib, d: Vec3, mat: Material)
    requires ValidSqrt(m) && IsUnit(d)
    ensures RefractedDirection(m, d, d.Scale(-1.0), mat) == d
  {
    var n := d.Scale(-1.0);
    var r := Ratio(d, n, mat);
    DotScale(d, d, -1.0);
    DotSymmetric(d, n);
    assert d.Dot(n) == -1.0;
    assert Cosine(d, n) == 1.0;
    assert Alpha(d, n, mat) == 1.0;
    SqrtOfSquare(m, 1.0, 1.0);
    assert NormalWeight(m, d, n, mat) == r - 1.0;
  }
}

=== FILE: renderer.dfy ===
/** The `Renderer` of Renderer.h: the recursive shader `trace`, its direct
    lighting `illumination`, the light attenuation walk `shadow`, the
    `background` with its light glows, and the per-pixel eye rays of `render`. */
module Renderers {
  import opened Basics
  import opened Geometry
  import opened Objects
  import opened Scenes
  import opened Optics
  import opened Backgrounds

  /** A `Background` strategy: the sky-and-checkerboard one, or any other. */
  datatype Backdrop = Basic | Custom(color: Ray -> Color)

  /** The renderer's configuration.  `backdrop` is `ptrBackground` (`None` is
      the null pointer); `defaultDepth` is the depth Ray.h gives a ray built
      without one; `shadowFuel` bounds the iterations of the `shadow` loop. */
  datatype Renderer = Renderer(
    scene: Scene,
    math: MathLib,
    origin: Vec3,
    dirUL: Vec3,
    dirUR: Vec3,
    dirLL: Vec3,
    dirLR: Vec3,
    backdrop: Option<Backdrop>,
    width: int,
    height: int,
    defaultDepth: int,
    shadowFuel: nat)

  /** The query `trace` and `shadow` make: the closest hit, with the null
      object and a zero point as the initial outputs. */
  function Nearest(rd: Renderer, ray: Ray): Query {
    Scenes.RayIntersection(rd.math, rd.scene, ray, None, Origin)
  }

  // ---------------------------------------------------------------------
  // background

  /** The glow of light `l` around the direction of `ray`: for `cos_a > 0.99`
      the light's colour scaled twice by `a = max(1 - acos(cos_a) 360/pi/8, 0)`. */
  function Glow(rd: Renderer, ray: Ray, l: Light): Color {
    var cosA := l.direction(ray.origin).Dot(ray.direction);
    if cosA > 0.99 then
      var a := Max(1.0 - rd.math.acos(cosA) * 360.0 / Pi / 8.0, 0.0);
      l.color(ray.origin).Scale(a).Scale(a)
    else
      Black
  }

  /** The glows of the lights, accumulated in list order. */
  function Glows(rd: Renderer, ray: Ray, lights: seq<Light>): Color
    decreases |lights|
  {
    if |lights| == 0 then Black
    else Glows(rd, ray, lights[..|lights| - 1]).Plus(Glow(rd, ray, lights[|lights| - 1]))
  }

  /** The colour of the `Background` strategy for `ray`. */
  function BackdropColor(m: MathLib, b: Backdrop, ray: Ray): Color {
    match b
    case Basic => BasicBackground(m, ray)
    case Custom(f) => f(ray)
  }

  /** `Renderer::background`: the glows, then the backdrop when there is one. */
  function Background(rd: Renderer, ray: Ray): Color {
    var glow := Glows(rd, ray, rd.scene.lights);
    match rd.backdrop
    case None => glow
    case Some(b) => glow.Plus(BackdropColor(rd.math, b, ray))
  }

  /** With no light in view (in particular with no light at all), the
      background is the backdrop's colour, or black without a backdrop. */
  lemma BackgroundWithoutGlow(rd: Renderer, ray: Ray)
    requires forall i :: 0 <= i < |rd.scene.lights| ==>
               rd.scene.lights[i].direction(ray.origin).Dot(ray.direction) <= 0.99
    ensures rd.backdrop.None? ==> Background(rd, ray) == Black
    ensures rd.backdrop.Some? ==> Background(rd, ray) == BackdropColor(rd.math, rd.backdrop.value, ray)
  {
    NoGlows(rd, ray, rd.scene.lights);
  }

  lemma {:induction false} NoGlows(rd: Renderer, ray: Ray, lights: seq<Light>)
    requires forall i :: 0 <= i < |lights| ==> lights[i].direction(ray.origin).Dot(ray.direction) <= 0.99
    ensures Glows(rd, ray, lights) == Black
    decreases |lights|
  {
    if |lights| > 0 {
      NoGlows(rd, ray, lights[..|lights| - 1]);
    }
  }

  /** The default renderer (a `BasicBackground`, no lights) paints the sky
      colour `(1 - z, 1 - z, 1)` for a direction with `z` in [0, 1]. */
  lemma DefaultSky(rd: Renderer, ray: Ray)
    requires rd.backdrop == Some(Basic) && rd.scene.lights == []
    requires 0.0 <= ray.direction.z <= 1.0
    ensures var z := ray.direction.z;
            Background(rd, ray) == Color(1.0 - z, 1.0 - z, 1.0)
  {
    SkyColor(rd.math, ray);
  }

  /** Glows only add light: with non-negative light colours the glows are
      non-negative on every channel. */
  lemma {:induction false} GlowsNonNegative(rd: Renderer, ray: Ray, lights: seq<Light>)
    requires forall i :: 0 <= i < |lights| ==> lights[i].color(ray.origin).NonNegative()
    ensures Glows(rd, ray, lights).NonNegative()
    decreases |lights|
  {
    if |lights| > 0 {
      GlowsNonNegative(rd, ray, lights[..|lights| - 1]);
      var l := lights[|lights| - 1];
      var cosA := l.direction(ray.origin).Dot(ray.direction);
      if cosA > 0.99 {
        var a := Max(1.0 - rd.math.acos(cosA) * 360.0 / Pi / 8.0, 0.0);
        var c := l.color(ray.origin);
        ScaleTwiceNonNegative(c.r, a);
        ScaleTwiceNonNegative(c.g, a);
        ScaleTwiceNonNegative(c.b, a);
      }
    }
  }

  lemma ScaleTwiceNonNegative(x: real, a: real)
    requires 0.0 <= x && 0.0 <= a
    ensures 0.0 <= a * (a * x)
  {
  }

  // ---------------------------------------------------------------------
  // shadow

  /** The loop of `shadow` stops once the light is this dim. */
  const Cutoff: real := 0.003

  /** The local state of the `shadow` loop: the light colour `c`, the ray
      `p_ray`, and the iterations it may still make. */
  datatype ShadowState = ShadowState(light: Color, ray: Ray, fuel: nat)

  /** `p_ray` with its origin moved one step along its direction. */
  function Advance(ray: Ray): Ray {
    ray.(origin := ray.origin.Plus(ray.direction))
  }

  /** The query of one iteration of the `shadow` loop. */
  function ShadowQuery(rd: Renderer, ray: Ray): Query {
    Nearest(rd, Advance(ray))
  }

  /** The loop of `Renderer::shadow`: while the light is brighter than the
      cutoff, step forward and look for an occluder; at one, scale the light
      by its `coef_refraction` and `diffuse` and restart from the point hit;
      at a miss, stop.  The result is where the loop stops. */
  function ShadowWalk(rd: Renderer, ray: Ray, c: Color, fuel: nat): (st: ShadowState)
    ensures st.fuel <= fuel && st.ray.direction == ray.direction
    ensures st.light.Max() <= Cutoff || st.fuel == 0 || ShadowQuery(rd, st.ray).code >= 0.0
    decreases fuel
  {
    if c.Max() <= Cutoff then
      ShadowState(c, ray, fuel)
    else if fuel == 0 then
      ShadowState(c, ray, 0)
    else
      var q := ShadowQuery(rd, ray);
      if q.code < 0.0 then
        var mat := rd.scene.objects[q.obj.value].material(q.point);
        ShadowWalk(rd, ray.(origin := q.point), c.Scale(mat.coef_refraction).Mul(mat.diffuse), fuel - 1)
      else
        ShadowState(c, ray, fuel)
  }

  /** `Renderer::shadow`: the colour of `lightColor` once it has crossed
      the objects between the ray's origin and the light. */
  function Shadow(rd: Renderer, ray: Ray, lightColor: Color): Color {
    ShadowWalk(rd, ray, lightColor, rd.shadowFuel).light
  }

  /** A light whose first step meets nothing comes back unchanged. */
  lemma ShadowUnblocked(rd: Renderer, ray: Ray, c: Color, fuel: nat)
    requires ShadowQuery(rd, ray).code >= 0.0
    ensures ShadowWalk(rd, ray, c, fuel).light == c
  {
  }

  /** An occluder whose `coef_refraction` is zero blocks the light entirely. */
  lemma OpaqueOccluder(rd: Renderer, ray: Ray, c: Color, fuel: nat)
    requires c.Max() > Cutoff && fuel > 0
    requires ShadowQuery(rd, ray).code < 0.0
    requires var q := ShadowQuery(rd, ray);
             rd.scene.objects[q.obj.value].material(q.point).coef_refraction == 0.0
    ensures ShadowWalk(rd, ray, c, fuel).light == Black
  {
    var q := ShadowQuery(rd, ray);
    var mat := rd.scene.objects[q.obj.value].material(q.point);
    var c' := c.Scale(mat.coef_refraction).Mul(mat.diffuse);
    assert c' == Black;
  }

  /** The attenuation factor `coef_refraction * diffuse` of a material lies
      in [0, 1] on every channel. */
  predicate Attenuating(mat: Material) {
    mat.diffuse.Scale(mat.coef_refraction).Within(0.0, 1.0)
  }

  /** Every object attenuates rather than amplifies light, at every point. */
  ghost predicate Translucent(objs: seq<Object>) {
    forall i, p :: 0 <= i < |objs| ==> Attenuating(objs[i].material(p))
  }

  /** When every occluder attenuates, the light crossing them never gains on
      any channel and stays non-negative. */
  lemma {:induction false} ShadowAttenuates(rd: Renderer, ray: Ray, c: Color, fuel: nat)
    requires Translucent(rd.scene.objects) && c.NonNegative()
    ensures var out := ShadowWalk(rd, ray, c, fuel).light;
            out.NonNegative() && out.Below(c)
    decreases fuel
  {
    if c.Max() > Cutoff && fuel > 0 {
      var q := ShadowQuery(rd, ray);
      if q.code < 0.0 {
        var mat := rd.scene.objects[q.obj.value].material(q.point);
        assert Attenuating(mat);
        var c' := c.Scale(mat.coef_refraction).Mul(mat.diffuse);
        ScaleIntoFactor(c, mat.coef_refraction, mat.diffuse);
        AttenuateColor(c, mat.diffuse.Scale(mat.coef_refraction));
        ShadowAttenuates(rd, ray.(origin := q.point), c', fuel - 1);
      }
    }
  }

  /** A factor in [0, 1] on every channel dims a non-negative colour. */
  lemma AttenuateColor(c: Color, a: Color)
    requires c.NonNegative() && a.Within(0.0, 1.0)
    ensures c.Mul(a).NonNegative() && c.Mul(a).Below(c)
  {
    var out := c.Mul(a);
    AttenuateChannel(c.r, a.r);
    assert 0.0 <= out.r <= c.r;
    AttenuateChannel(c.g, a.g);
    assert 0.0 <= out.g <= c.g;
    AttenuateChannel(c.b, a.b);
    assert 0.0 <= out.b <= c.b;
  }

  lemma AttenuateChannel(x: real, a: real)
    requires 0.0 <= x && 0.0 <= a <= 1.0
    ensures 0.0 <= x * a <= x
  {
    assert x - x * a == x * (1.0 - a);
  }

  /** `c * k * d` is `c` times the factor `k * d`. */
  lemma ScaleIntoFactor(c: Color, k: real, d: Color)
    ensures c.Scale(k).Mul(d) == c.Mul(d.Scale(k))
  {
    assert (k * c.r) * d.r == c.r * (k * d.r);
    assert (k * c.g) * d.g == c.g * (k * d.g);
    assert (k * c.b) * d.b == c.b * (k * d.b);
  }

  // ---------------------------------------------------------------------
  // illumination

  /** What light `l` adds at `p` on object `o` seen along `ray` (Phong): the
      diffuse term with its factor clamped at 0, and the specular term only
      when its base is non-negative; both with the light as `shadow` leaves it. */
  function LightTerm(rd: Renderer, ray: Ray, o: Object, p: Vec3, l: Light): Color {
    var lightColor := Shadow(rd, Ray(p, l.direction(p), rd.defaultDepth), l.color(p));
    var mat := o.material(p);
    var diffusion := l.direction(p).Dot(o.normal(p));
    var diffusion' := if diffusion < 0.0 then 0.0 else diffusion;
    var diffuse := mat.diffuse.Scale(diffusion').Mul(lightColor);
    var specular := l.direction(p).Dot(Reflect(ray.direction, o.normal(p)));
    if specular >= 0.0 then
      diffuse.Plus(mat.specular.Scale(rd.math.pow(specular, mat.shinyness)).Mul(lightColor))
    else
      diffuse
  }

  /** The light terms accumulated in list order. */
  function Lighting(rd: Renderer, ray: Ray, o: Object, p: Vec3, lights: seq<Light>): Color
    decreases |lights|
  {
    if |lights| == 0 then Black
    else Lighting(rd, ray, o, p, lights[..|lights| - 1]).Plus(LightTerm(rd, ray, o, p, lights[|lights| - 1]))
  }

  /** `Renderer::illumination`: the light terms of the scene's lights, then
      the ambient colour once. */
  function Illumination(rd: Renderer, ray: Ray, o: Object, p: Vec3): Color {
    Lighting(rd, ray, o, p, rd.scene.lights).Plus(o.material(p).ambient)
  }

  /** With no lights, the illumination is the ambient colour. */
  lemma IlluminationWithoutLights(rd: Renderer, ray: Ray, o: Object, p: Vec3)
    requires rd.scene.lights == []
    ensures Illumination(rd, ray, o, p) == o.material(p).ambient
  {
  }

  /** Adding a light adds exactly its term to the illumination. */
  lemma AddLightIllumination(rd: Renderer, ray: Ray, o: Object, p: Vec3, l: Light)
    ensures var rd' := rd.(scene := AddLight(rd.scene, l));
            Illumination(rd', ray, o, p)
            == Illumination(rd, ray, o, p).Plus(LightTerm(rd', ray, o, p, l))
  {
    var rd' := rd.(scene := AddLight(rd.scene, l));
    var lights' := rd'.scene.lights;
    assert lights'[..|lights'| - 1] == rd.scene.lights;
    LightingFrame(rd, rd', ray, o, p, rd.scene.lights);
  }

  /** The lighting does not depend on the light list of the renderer. */
  lemma {:induction false} LightingFrame(rd: Renderer, rd': Renderer, ray: Ray, o: Object, p: Vec3, lights: seq<Light>)
    requires rd'.scene.objects == rd.scene.objects
    requires rd' == rd.(scene := rd'.scene)
    ensures Lighting(rd', ray, o, p, lights) == Lighting(rd, ray, o, p, lights)
    decreases |lights|
  {
    if |lights| > 0 {
      LightingFrame(rd, rd', ray, o, p, lights[..|lights| - 1]);
      var l := lights[|lights| - 1];
      var shadowRay := Ray(p, l.direction(p), rd.defaultDepth);
      ShadowWalkFrame(rd, rd', shadowRay, l.color(p), rd.shadowFuel);
    }
  }

  /** The shadow walk only looks at the objects of the scene. */
  lemma {:induction false} ShadowWalkFrame(rd: Renderer, rd': Renderer, ray: Ray, c: Color, fuel: nat)
    requires rd'.scene.objects == rd.scene.objects
    requires rd' == rd.(scene := rd'.scene)
    ensures ShadowWalk(rd', ray, c, fuel) == ShadowWalk(rd, ray, c, fuel)
    decreases fuel
  {
    if c.Max() > Cutoff && fuel > 0 {
      var q := ShadowQuery(rd, ray);
      if q.code < 0.0 {
        var mat := rd.scene.objects[q.obj.value].material(q.point);
        ShadowWalkFrame(rd, rd', ray.(origin := q.point), c.Scale(mat.coef_refraction).Mul(mat.diffuse), fuel - 1);
      }
    }
  }

  /** A light behind the surface whose mirror direction also points away
      from it contributes nothing. */
  lemma LightBehind(rd: Renderer, ray: Ray, o: Object, p: Vec3, l: Light)
    requires l.direction(p).Dot(o.normal(p)) <= 0.0
    requires l.direction(p).Dot(Reflect(ray.direction, o.normal(p))) < 0.0
    ensures LightTerm(rd, ray, o, p, l) == Black
  {
  }

  /** Lights only add: with non-negative light colours and material colours,
      attenuating occluders and a `powf` that keeps non-negative bases
      non-negative, the illumination is at least the ambient colour. */
  lemma IlluminationAboveAmbient(rd: Renderer, ray: Ray, o: Object, p: Vec3)
    requires ValidPow(rd.math) && Translucent(rd.scene.objects)
    requires forall i :: 0 <= i < |rd.scene.lights| ==> rd.scene.lights[i].color(p).NonNegative()
    requires o.material(p).diffuse.NonNegative() && o.material(p).specular.NonNegative()
    ensures o.material(p).ambient.Below(Illumination(rd, ray, o, p))
  {
    LightingNonNegative(rd, ray, o, p, rd.scene.lights);
  }

  lemma {:induction false} LightingNonNegative(rd: Renderer, ray: Ray, o: Object, p: Vec3, lights: seq<Light>)
    requires ValidPow(rd.math) && Translucent(rd.scene.objects)
    requires forall i :: 0 <= i < |lights| ==> lights[i].color(p).NonNegative()
    requires o.material(p).diffuse.NonNegative() && o.material(p).specular.NonNegative()
    ensures Lighting(rd, ray, o, p, lights).NonNegative()
    decreases |lights|
  {
    if |lights| > 0 {
      LightingNonNegative(rd, ray, o, p, lights[..|lights| - 1]);
      LightTermNonNegative(rd, ray, o, p, lights[|lights| - 1]);
    }
  }

  lemma LightTermNonNegative(rd: Renderer, ray: Ray, o: Object, p: Vec3, l: Light)
    requires ValidPow(rd.math) && Translucent(rd.scene.objects)
    requires l.color(p).NonNegative()
    requires o.material(p).diffuse.NonNegative() && o.material(p).specular.NonNegative()
    ensures LightTerm(rd, ray, o, p, l).NonNegative()
  {
    var lightColor := Shadow(rd, Ray(p, l.direction(p), rd.defaultDepth), l.color(p));
    ShadowAttenuates(rd, Ray(p, l.direction(p), rd.defaultDepth), l.color(p), rd.shadowFuel);
    var mat := o.material(p);
    var diffusion := l.direction(p).Dot(o.normal(p));
    var diffusion' := if diffusion < 0.0 then 0.0 else diffusion;
    WeightedNonNegative(mat.diffuse, diffusion', lightColor);
    var specular := l.direction(p).Dot(Reflect(ray.direction, o.normal(p)));
    if specular >= 0.0 {
      WeightedNonNegative(mat.specular, rd.math.pow(specular, mat.shinyness), lightColor);
    }
  }

  lemma WeightedNonNegative(c: Color, k: real, l: Color)
    requires c.NonNegative() && 0.0 <= k && l.NonNegative()
    ensures c.Scale(k).Mul(l).NonNegative()
  {
    ProductOfNonNegatives(k * c.r, l.r);
    ProductOfNonNegatives(k * c.g, l.g);
    ProductOfNonNegatives(k * c.b, l.b);
  }

  // ---------------------------------------------------------------------
  // trace

  /** The mirror ray `trace` builds: from the ORIGIN of `ray` (not from the
      point hit), along the reflected direction, with the default depth of a
      new ray minus one. */
  function ReflectedRay(rd: Renderer, ray: Ray, n: Vec3): Ray {
    var r := Ray(ray.origin, Reflect(ray.direction, n), rd.defaultDepth);
    r.(depth := r.depth - 1)
  }

  /** The refracted ray `trace` follows: `refractionRay`'s ray, with depth
      one less again. */
  function RefractedRay(rd: Renderer, ray: Ray, p: Vec3, n: Vec3, mat: Material): Ray {
    var r := RefractionRay(rd.math, ray, p, n, mat);
    r.(depth := r.depth - 1)
  }

  /** `Renderer::trace`.  Recursion stops because a ray with a positive depth
      only spawns rays of smaller depth, which holds when the default depth of
      Ray.h is at most 1. */
  function Trace(rd: Renderer, ray: Ray): Color
    requires rd.defaultDepth <= 1
    decreases Budget(ray.depth)
  {
    var q := Nearest(rd, ray);
    if q.code >= 0.0 then
      Background(rd, ray)
    else
      var o := rd.scene.objects[q.obj.value];
      var p := q.point;
      var mat := o.material(p);
      var mirrored := if ray.depth > 0 && mat.coef_reflexion != 0.0 then
                        Black.Plus(Trace(rd, ReflectedRay(rd, ray, o.normal(p))).Mul(mat.specular).Scale(mat.coef_reflexion))
                      else Black;
      var refracted := if ray.depth > 0 && mat.coef_refraction != 0.0 then
                         mirrored.Plus(Trace(rd, RefractedRay(rd, ray, p, o.normal(p), mat)).Mul(mat.diffuse).Scale(mat.coef_refraction))
                       else mirrored;
      if ray.depth > 0 then refracted.Plus(Illumination(rd, ray, o, p).Scale(mat.coef_diffusion))
      else refracted.Plus(Illumination(rd, ray, o, p))
  }

  /** Whenever the query does not report a negative code, `trace` is the
      background of the ray. */
  lemma TraceMiss(rd: Renderer, ray: Ray)
    requires rd.defaultDepth <= 1
    requires Nearest(rd, ray).code >= 0.0
    ensures Trace(rd, ray) == Background(rd, ray)
  {
  }

  /** So an object hit exactly at the ray's origin is not seen: the ray gets
      the background although the scene reports a hit. */
  lemma HitAtOriginIsBackground(rd: Renderer, ray: Ray)
    requires rd.defaultDepth <= 1 && ValidSqrt(rd.math)
    requires !NoHit(rd.scene.objects, ray, |rd.scene.objects|)
    requires var q := Nearest(rd, ray);
             rd.scene.objects[q.obj.value].intersect(ray).point == ray.origin
    ensures Trace(rd, ray) == Background(rd, ray)
  {
    HitCodeSign(rd.math, rd.scene, ray, None, Origin);
  }

  /** A ray with no depth left spawns no ray: its colour is the unscaled
      illumination at the point hit. */
  lemma TraceAtDepthZero(rd: Renderer, ray: Ray)
    requires rd.defaultDepth <= 1
    requires ray.depth <= 0 && Nearest(rd, ray).code < 0.0
    ensures var q := Nearest(rd, ray);
            Trace(rd, ray) == Illumination(rd, ray, rd.scene.objects[q.obj.value], q.point)
  {
  }

  /** The weights of the three terms of a ray with depth left: the mirror
      colour by `specular * coef_reflexion`, the refracted colour by
      `diffuse * coef_refraction` and the illumination by `coef_diffusion`; a
      zero coefficient drops its term and its recursive call. */
  lemma TraceWeights(rd: Renderer, ray: Ray)
    requires rd.defaultDepth <= 1
    requires ray.depth > 0 && Nearest(rd, ray).code < 0.0
    ensures var q := Nearest(rd, ray);
            var o := rd.scene.objects[q.obj.value];
            var p := q.point;
            var mat := o.material(p);
            var reflected := Trace(rd, ReflectedRay(rd, ray, o.normal(p)));
            var refracted := Trace(rd, RefractedRay(rd, ray, p, o.normal(p), mat));
            Trace(rd, ray)
            == reflected.Mul(mat.specular).Scale(mat.coef_reflexion)
                 .Plus(refracted.Mul(mat.diffuse).Scale(mat.coef_refraction))
                 .Plus(Illumination(rd, ray, o, p).Scale(mat.coef_diffusion))
  {
    var q := Nearest(rd, ray);
    var o := rd.scene.objects[q.obj.value];
    var p := q.point;
    var mat := o.material(p);
    var reflected := Trace(rd, ReflectedRay(rd, ray, o.normal(p)));
    var refracted := Trace(rd, RefractedRay(rd, ray, p, o.normal(p), mat));
    var a := reflected.Mul(mat.specular).Scale(mat.coef_reflexion);
    var b := refracted.Mul(mat.diffuse).Scale(mat.coef_refraction);
    var c := Illumination(rd, ray, o, p).Scale(mat.coef_diffusion);
    var r1 := if mat.coef_reflexion != 0.0 then Black.Plus(a) else Black;
    var r2 := if mat.coef_refraction != 0.0 then r1.Plus(b) else r1;
    assert Trace(rd, ray) == r2.Plus(c);
    ZeroWeight(reflected.Mul(mat.specular), mat.coef_reflexion);
    ZeroWeight(refracted.Mul(mat.diffuse), mat.coef_refraction);
    assert r1 == a;
    if mat.coef_refraction == 0.0 {
      assert b == Black;
      ZeroWeight(a, 1.0);
    }
    assert r2 == a.Plus(b);
  }

  /** Black is neutral, and a zero weight gives black. */
  lemma ZeroWeight(x: Color, k: real)
    ensures Black.Plus(x) == x && x.Plus(Black) == x
    ensures k == 0.0 ==> x.Scale(k) == Black
  {
  }

  /** The secondary rays: the mirror ray starts at the ray's origin with one
      less than the default depth, and the refracted ray starts a hundredth of
      its direction past the point hit with two less than the ray's depth. */
  lemma SecondaryRays(rd: Renderer, ray: Ray, p: Vec3, n: Vec3, mat: Material)
    ensures var r := ReflectedRay(rd, ray, n);
            r.origin == ray.origin && r.depth == rd.defaultDepth - 1
            && r.direction == Reflect(ray.direction, n)
    ensures var r := RefractedRay(rd, ray, p, n, mat);
            r.origin == p.Plus(r.direction.Scale(0.01)) && r.depth == ray.depth - 2
            && r.direction == RefractedDirection(rd.math, ray.direction, n, mat)
  {
  }

  /** Why `trace` is defined only for `defaultDepth <= 1`: at a grazing hit,
      where the direction is perpendicular to the normal, the mirror ray is
      the traced ray itself with depth `defaultDepth - 1`.  So with a default
      depth of 2 or more, a ray of depth `defaultDepth - 1` that grazes a
      reflective object spawns exactly itself, and the recursion never ends. */
  lemma GrazingMirrorRepeats(rd: Renderer, ray: Ray, n: Vec3)
    requires ray.direction.Dot(n) == 0.0
    ensures ReflectedRay(rd, ray, n) == ray.(depth := rd.defaultDepth - 1)
    ensures ray.depth == rd.defaultDepth - 1 ==> ReflectedRay(rd, ray, n) == ray
  {
    assert n.Scale(2.0 * 0.0) == Origin;
  }

  /** A perfect mirror (all light reflected into a white specular colour,
      nothing diffused or refracted) shows exactly what its mirror ray sees. */
  lemma Mirror(rd: Renderer, ray: Ray)
    requires rd.defaultDepth <= 1
    requires ray.depth > 0 && Nearest(rd, ray).code < 0.0
    requires var q := Nearest(rd, ray);
             var mat := rd.scene.objects[q.obj.value].material(q.point);
             mat.coef_reflexion == 1.0 && mat.coef_refraction == 0.0 && mat.coef_diffusion == 0.0
             && mat.specular == White
    ensures var q := Nearest(rd, ray);
            var o := rd.scene.objects[q.obj.value];
            Trace(rd, ray) == Trace(rd, ReflectedRay(rd, ray, o.normal(q.point)))
  {
  }

  /** A material that only scatters light: non-negative colours and
      coefficients. */
  predicate Scattering(mat: Material) {
    && mat.ambient.NonNegative() && mat.diffuse.NonNegative() && mat.specular.NonNegative()
    && 0.0 <= mat.coef_diffusion && 0.0 <= mat.coef_reflexion && 0.0 <= mat.coef_refraction
  }

  /** A physically meaningful renderer: lights, materials and the backdrop
      give non-negative colours, every occluder attenuates, and `sqrt` and
      `powf` behave as the C library's. */
  ghost predicate Physical(rd: Renderer) {
    && ValidSqrt(rd.math) && ValidPow(rd.math)
    && Translucent(rd.scene.objects)
    && (forall i, p :: 0 <= i < |rd.scene.lights| ==> rd.scene.lights[i].color(p).NonNegative())
    && (forall i, p :: 0 <= i < |rd.scene.objects| ==> Scattering(rd.scene.objects[i].material(p)))
    && (rd.backdrop.Some? && rd.backdrop.value.Custom? ==>
          forall r :: rd.backdrop.value.color(r).NonNegative())
  }

  /** In a physical scene the background is non-negative. */
  lemma BackgroundNonNegative(rd: Renderer, ray: Ray)
    requires Physical(rd)
    ensures Background(rd, ray).NonNegative()
  {
    var lights := rd.scene.lights;
    assert forall i :: 0 <= i < |lights| ==> lights[i].color(ray.origin).NonNegative();
    GlowsNonNegative(rd, ray, lights);
    if rd.backdrop == Some(Basic) {
      BasicBackgroundRange(rd.math, ray);
    }
  }

  /** `trace` never produces negative light in a physical scene, whatever the
      depth: each term is a non-negative colour weighted by non-negative
      coefficients, and the recursive rays are traced in the same scene. */
  lemma {:induction false} TraceNonNegative(rd: Renderer, ray: Ray)
    requires rd.defaultDepth <= 1 && Physical(rd)
    ensures Trace(rd, ray).NonNegative()
    decreases Budget(ray.depth)
  {
    var q := Nearest(rd, ray);
    if q.code >= 0.0 {
      BackgroundNonNegative(rd, ray);
    } else {
      var o := rd.scene.objects[q.obj.value];
      var p := q.point;
      var mat := o.material(p);
      assert Scattering(mat);
      assert forall i :: 0 <= i < |rd.scene.lights| ==> rd.scene.lights[i].color(p).NonNegative();
      IlluminationAboveAmbient(rd, ray, o, p);
      var mirrored := Black;
      if ray.depth > 0 && mat.coef_reflexion != 0.0 {
        var m := ReflectedRay(rd, ray, o.normal(p));
        TraceNonNegative(rd, m);
        WeightedColorNonNegative(Trace(rd, m), mat.specular, mat.coef_reflexion);
        mirrored := Black.Plus(Trace(rd, m).Mul(mat.specular).Scale(mat.coef_reflexion));
      }
      assert mirrored.NonNegative();
      var refracted := mirrored;
      if ray.depth > 0 && mat.coef_refraction != 0.0 {
        var t := RefractedRay(rd, ray, p, o.normal(p), mat);
        TraceNonNegative(rd, t);
        WeightedColorNonNegative(Trace(rd, t), mat.diffuse, mat.coef_refraction);
        refracted := mirrored.Plus(Trace(rd, t).Mul(mat.diffuse).Scale(mat.coef_refraction));
      }
      assert refracted.NonNegative();
      var illumination := Illumination(rd, ray, o, p);
      assert illumination.NonNegative();
      WeightedColorNonNegative(illumination, White, mat.coef_diffusion);
      assert illumination.Mul(White) == illumination;
    }
  }

  lemma WeightedColorNonNegative(c: Color, d: Color, k: real)
    requires c.NonNegative() && d.NonNegative() && 0.0 <= k
    ensures c.Mul(d).Scale(k).NonNegative()
  {
    ProductOfNonNegatives(c.r, d.r);
    ProductOfNonNegatives(c.g, d.g);
    ProductOfNonNegatives(c.b, d.b);
    ProductOfNonNegatives(k, c.r * d.r);
    ProductOfNonNegatives(k, c.g * d.g);
    ProductOfNonNegatives(k, c.b * d.b);
  }

  // ---------------------------------------------------------------------
  // render

  /** `(1 - t) a + t b`. */
  function Lerp(a: Vec3, b: Vec3, t: real): Vec3 {
    a.Scale(1.0 - t).Plus(b.Scale(t))
  }

  /** The row fraction `ty = y / (height - 1)`. */
  function RowFraction(rd: Renderer, y: int): real
    requires rd.height >= 2
  {
    y as real / (rd.height - 1) as real
  }

  function ColumnFraction(rd: Renderer, x: int): real
    requires rd.width >= 2
  {
    x as real / (rd.width - 1) as real
  }

  /** The left and right edge directions of row `y`, before normalisation. */
  function LeftEdge(rd: Renderer, y: int): Vec3
    requires rd.height >= 2
  {
    Lerp(rd.dirUL, rd.dirLL, RowFraction(rd, y))
  }

  function RightEdge(rd: Renderer, y: int): Vec3
    requires rd.height >= 2
  {
    Lerp(rd.dirUR, rd.dirLR, RowFraction(rd, y))
  }

  /** `dir /= dir.norm()`. */
  function Normalize(m: MathLib, v: Vec3): (u: Vec3)
    requires ValidSqrt(m) && v != Origin
    ensures IsUnit(u) && u.Scale(Norm(m, v)) == v
  {
    DivByNormIsUnit(m, v);
    v.Div(Norm(m, v))
  }

  /** The viewport can be rendered: both edge directions of every row are
      non-zero, so that they can be normalised. */
  ghost predicate ValidViewport(rd: Renderer) {
    && rd.width >= 2 && rd.height >= 2
    && ValidSqrt(rd.math)
    && forall y :: 0 <= y < rd.height ==> LeftEdge(rd, y) != Origin && RightEdge(rd, y) != Origin
  }

  /** The direction of the eye ray of pixel `(x, y)` in `render`: the
      normalised edge directions of row `y`, interpolated at column `x`. */
  function PixelDirection(rd: Renderer, x: int, y: int): Vec3
    requires ValidViewport(rd) && 0 <= x < rd.width && 0 <= y < rd.height
  {
    var dirL := Normalize(rd.math, LeftEdge(rd, y));
    var dirR := Normalize(rd.math, RightEdge(rd, y));
    Lerp(dirL, dirR, ColumnFraction(rd, x))
  }

  /** The eye ray of pixel `(x, y)`: from the camera, with the maximal depth. */
  function EyeRay(rd: Renderer, x: int, y: int, maxDepth: int): Ray
    requires ValidViewport(rd) && 0 <= x < rd.width && 0 <= y < rd.height
  {
    Ray(rd.origin, PixelDirection(rd, x, y), maxDepth)
  }

  /** The viewports `render` can draw without dividing by zero: an empty one,
      where its loops do not run, or a valid one. */
  ghost predicate Drawable(rd: Renderer) {
    && 0 <= rd.width && 0 <= rd.height
    && (rd.width == 0 || rd.height == 0 || ValidViewport(rd))
  }

  /** The image `render` writes: `height` rows of `width` pixels, each the
      clamped colour traced along its eye ray, so in [0, 1] on every channel. */
  function Render(rd: Renderer, maxDepth: int): (image: seq<seq<Color>>)
    requires Drawable(rd) && rd.defaultDepth <= 1
    ensures |image| == rd.height
    ensures forall y :: 0 <= y < rd.height ==> |image[y]| == rd.width
    ensures forall y, x :: 0 <= y < rd.height && 0 <= x < rd.width ==>
              image[y][x] == Trace(rd, EyeRay(rd, x, y, maxDepth)).Clamp()
    ensures forall y, x :: 0 <= y < rd.height && 0 <= x < rd.width ==>
              image[y][x].Within(0.0, 1.0)
  {
    seq(rd.height, y requires 0 <= y < rd.height =>
      seq(rd.width, x requires 0 <= x < rd.width => Trace(rd, EyeRay(rd, x, y, maxDepth)).Clamp()))
  }

  /** The four corner pixels look along the normalised corner directions. */
  lemma Corners(rd: Renderer)
    requires ValidViewport(rd)
    requires rd.dirUL != Origin && rd.dirUR != Origin && rd.dirLL != Origin && rd.dirLR != Origin
    ensures PixelDirection(rd, 0, 0) == Normalize(rd.math, rd.dirUL)
    ensures PixelDirection(rd, rd.width - 1, 0) == Normalize(rd.math, rd.dirUR)
    ensures PixelDirection(rd, 0, rd.height - 1) == Normalize(rd.math, rd.dirLL)
    ensures PixelDirection(rd, rd.width - 1, rd.height - 1) == Normalize(rd.math, rd.dirLR)
  {
    EdgeEnds(rd);
    RowEnds(rd, 0);
    RowEnds(rd, rd.height - 1);
  }

  /** The first and last rows run along the upper and lower corner directions. */
  lemma EdgeEnds(rd: Renderer)
    requires rd.height >= 2
    ensures LeftEdge(rd, 0) == rd.dirUL && RightEdge(rd, 0) == rd.dirUR
    ensures LeftEdge(rd, rd.height - 1) == rd.dirLL && RightEdge(rd, rd.height - 1) == rd.dirLR
  {
    assert RowFraction(rd, 0) == 0.0 && RowFraction(rd, rd.height - 1) == 1.0;
    LerpEnds(rd.dirUL, rd.dirLL);
    LerpEnds(rd.dirUR, rd.dirLR);
  }

  /** The first and last pixels of a row look along its normalised edges. */
  lemma RowEnds(rd: Renderer, y: int)
    requires ValidViewport(rd) && 0 <= y < rd.height
    ensures PixelDirection(rd, 0, y) == Normalize(rd.math, LeftEdge(rd, y))
    ensures PixelDirection(rd, rd.width - 1, y) == Normalize(rd.math, RightEdge(rd, y))
  {
    assert ColumnFraction(rd, 0) == 0.0 && ColumnFraction(rd, rd.width - 1) == 1.0;
    LerpEnds(Normalize(rd.math, LeftEdge(rd, y)), Normalize(rd.math, RightEdge(rd, y)));
  }

  lemma LerpEnds(a: Vec3, b: Vec3)
    ensures Lerp(a, b, 0.0) == a && Lerp(a, b, 1.0) == b
  {
  }

  /** Every eye ray direction is a blend of two unit vectors, so its squared
      length is at most 1. */
  lemma PixelDirectionLength(rd: Renderer, x: int, y: int)
    requires ValidViewport(rd) && 0 <= x < rd.width && 0 <= y < rd.height
    ensures PixelDirection(rd, x, y).Norm2() <= 1.0
  {
    var dirL := Normalize(rd.math, LeftEdge(rd, y));
    var dirR := Normalize(rd.math, RightEdge(rd, y));
    var t := ColumnFraction(rd, x);
    assert 0.0 <= t <= 1.0;
    BlendOfUnits(dirL, dirR, t);
  }

  /** `|(1 - t) a + t b|^2 <= 1` for unit `a`, `b` and `t` in [0, 1]. */
  lemma BlendOfUnits(a: Vec3, b: Vec3, t: real)
    requires IsUnit(a) && IsUnit(b) && 0.0 <= t <= 1.0
    ensures Lerp(a, b, t).Norm2() <= 1.0
  {
    Norm2OfCombination(a, b, 1.0 - t, t);
    var ab := a.Dot(b);
    UnitDotAtMostOne(a, b);
    var s := 1.0 - t;
    assert 0.0 <= s * t;
    assert Lerp(a, b, t).Norm2() == s * s + 2.0 * s * t * ab + t * t;
    assert 2.0 * s * t * ab <= 2.0 * s * t;
    assert s * s + 2.0 * s * t + t * t == (s + t) * (s + t);
  }

  /** Cauchy-Schwarz for unit vectors: `a.b <= 1`. */
  lemma UnitDotAtMostOne(a: Vec3, b: Vec3)
    requires IsUnit(a) && IsUnit(b)
    ensures a.Dot(b) <= 1.0
  {
    Norm2OfCombination(a, b, 1.0, -1.0);
    Norm2ZeroIff(a.Scale(1.0).Plus(b.Scale(-1.0)));
  }

  /** A unit vector is its own normalisation. */
  lemma UnitNormalizes(m: MathLib, v: Vec3)
    requires ValidSqrt(m) && v.Norm2() == 1.0
    ensures v != Origin && Normalize(m, v) == v
  {
    SqrtSpec(m, 1.0);
    var n := m.sqrt(1.0);
    ZeroProduct(n - 1.0, n + 1.0);
  }
}

=== FILE: scene.dfy ===
/** The scene of Scene.h: the lists of lights and objects in insertion order,
    and the closest-hit query over the objects. */
module Scenes {
  import opened Basics
  import opened Geometry
  import opened Objects

  datatype Scene = Scene(lights: seq<Light>, objects: seq<Object>)

  /** `Scene::addObject`: appends at the end. */
  function AddObject(s: Scene, o: Object): (r: Scene)
    ensures |r.objects| == |s.objects| + 1
    ensures r.objects[..|s.objects|] == s.objects && r.objects[|s.objects|] == o
    ensures r.lights == s.lights
  {
    s.(objects := s.objects + [o])
  }

  /** `Scene::addLight`: appends at the end. */
  function AddLight(s: Scene, l: Light): (r: Scene)
    ensures |r.lights| == |s.lights| + 1
    ensures r.lights[..|s.lights|] == s.lights && r.lights[|s.lights|] == l
    ensures r.objects == s.objects
  {
    s.(lights := s.lights + [l])
  }

  /** What `Scene::rayIntersection` returns (`code`) and writes through its
      `object` and `p` reference parameters.  The object is an index into the
      object list; `None` is the null pointer. */
  datatype Query = Query(code: real, obj: Option<nat>, point: Vec3)

  /** The object at index `i` reports a hit: its own code is <= 0. */
  predicate Hit(objs: seq<Object>, ray: Ray, i: nat)
    requires i < |objs|
  {
    objs[i].intersect(ray).code <= 0.0
  }

  /** The distance from the ray origin to the point object `i` writes. */
  function HitDistance(m: MathLib, objs: seq<Object>, ray: Ray, i: nat): real
    requires i < |objs|
  {
    Distance(m, ray.origin, objs[i].intersect(ray).point)
  }

  /** None of the first `n` objects is hit. */
  predicate NoHit(objs: seq<Object>, ray: Ray, n: nat)
    requires n <= |objs|
  {
    forall j :: 0 <= j < n ==> !Hit(objs, ray, j)
  }

  /** Among the first `n` objects, `k` is hit, no hit object is nearer, and
      every hit object before it is strictly farther: `k` is the first of the
      nearest. */
  ghost predicate FirstNearest(m: MathLib, objs: seq<Object>, ray: Ray, n: nat, k: nat)
    requires n <= |objs|
  {
    && k < n
    && Hit(objs, ray, k)
    && (forall j :: 0 <= j < n && Hit(objs, ray, j) ==>
          HitDistance(m, objs, ray, k) <= HitDistance(m, objs, ray, j))
    && (forall j :: 0 <= j < k && Hit(objs, ray, j) ==>
          HitDistance(m, objs, ray, k) < HitDistance(m, objs, ray, j))
  }

  /** The local variables of the loop in `Scene::rayIntersection`. */
  datatype ScanState = ScanState(distance: real, found: bool, obj: Option<nat>, point: Vec3)

  /** What the loop maintains after visiting the first `n` objects. */
  ghost predicate ScanInvariant(m: MathLib, objs: seq<Object>, ray: Ray, n: nat,
                                obj0: Option<nat>, p0: Vec3, st: ScanState)
    requires n <= |objs|
  {
    && (st.found <==> !NoHit(objs, ray, n))
    && (!st.found ==> st.distance == 0.0 && st.obj == obj0 && st.point == p0)
    && (st.found ==>
          && st.obj.Some?
          && FirstNearest(m, objs, ray, n, st.obj.value)
          && st.point == objs[st.obj.value].intersect(ray).point
          && st.distance == HitDistance(m, objs, ray, st.obj.value))
  }

  /** The loop of `Scene::rayIntersection` after its first `n` iterations:
      an object replaces the current choice when it is hit and strictly
      nearer, or when it is the first hit. */
  function Scan(m: MathLib, objs: seq<Object>, ray: Ray, n: nat, obj0: Option<nat>, p0: Vec3): (st: ScanState)
    requires n <= |objs|
    ensures ScanInvariant(m, objs, ray, n, obj0, p0, st)
    decreases n
  {
    if n == 0 then
      ScanState(0.0, false, obj0, p0)
    else
      var st := Scan(m, objs, ray, n - 1, obj0, p0);
      var i := n - 1;
      var hit := objs[i].intersect(ray);
      if hit.code <= 0.0 then
        assert Hit(objs, ray, i);
        var d := Distance(m, ray.origin, hit.point);
        if d < st.distance || !st.found then ScanState(d, true, Some(i), hit.point)
        else st
      else
        st
  }

  /** `Scene::rayIntersection`: the closest object hit by the ray.  `obj0`
      and `p0` are the values the caller's `object` and `p` hold on entry. */
  function RayIntersection(m: MathLib, s: Scene, ray: Ray, obj0: Option<nat>, p0: Vec3): (r: Query)
    ensures NoHit(s.objects, ray, |s.objects|) ==> r == Query(0.0, obj0, p0)
    ensures !NoHit(s.objects, ray, |s.objects|) ==>
              && r.obj.Some?
              && FirstNearest(m, s.objects, ray, |s.objects|, r.obj.value)
              && r.point == s.objects[r.obj.value].intersect(ray).point
              && r.code == -HitDistance(m, s.objects, ray, r.obj.value)
  {
    var st := Scan(m, s.objects, ray, |s.objects|, obj0, p0);
    Query(if st.found then -st.distance else st.distance, st.obj, st.point)
  }

  /** First-wins argmin has at most one answer. */
  lemma FirstNearestUnique(m: MathLib, objs: seq<Object>, ray: Ray, n: nat, k1: nat, k2: nat)
    requires n <= |objs|
    requires FirstNearest(m, objs, ray, n, k1) && FirstNearest(m, objs, ray, n, k2)
    ensures k1 == k2
  {
  }

  /** A strictly negative code always designates an object of the scene. */
  lemma NegativeCodeHasObject(m: MathLib, s: Scene, ray: Ray, p0: Vec3)
    ensures var r := RayIntersection(m, s, ray, None, p0);
            r.code < 0.0 ==> r.obj.Some? && r.obj.value < |s.objects|
  {
  }

  /** With a real `sqrt` the code of a hit is the negated, non-negative
      distance: <= 0, and exactly 0 when the nearest hit is at the origin. */
  lemma HitCodeSign(m: MathLib, s: Scene, ray: Ray, obj0: Option<nat>, p0: Vec3)
    requires ValidSqrt(m)
    requires !NoHit(s.objects, ray, |s.objects|)
    ensures var r := RayIntersection(m, s, ray, obj0, p0);
            && r.code <= 0.0
            && (r.code == 0.0 <==> s.objects[r.obj.value].intersect(ray).point == ray.origin)
  {
    var r := RayIntersection(m, s, ray, obj0, p0);
    DistanceZeroIff(m, ray.origin, s.objects[r.obj.value].intersect(ray).point);
  }

  /** The scan of a prefix does not depend on what follows it. */
  lemma {:induction false} ScanPrefix(m: MathLib, objs: seq<Object>, more: seq<Object>, ray: Ray, n: nat,
                                      obj0: Option<nat>, p0: Vec3)
    requires n <= |objs|
    ensures Scan(m, objs + more, ray, n, obj0, p0) == Scan(m, objs, ray, n, obj0, p0)
    decreases n
  {
    if n > 0 {
      ScanPrefix(m, objs, more, ray, n - 1, obj0, p0);
      assert (objs + more)[n - 1] == objs[n - 1];
    }
  }

  /** Adding an object the ray misses changes nothing in the answer. */
  lemma AddMissedObject(m: MathLib, s: Scene, o: Object, ray: Ray, obj0: Option<nat>, p0: Vec3)
    requires o.intersect(ray).code > 0.0
    ensures RayIntersection(m, AddObject(s, o), ray, obj0, p0) == RayIntersection(m, s, ray, obj0, p0)
  {
    var objs := s.objects;
    ScanPrefix(m, objs, [o], ray, |objs|, obj0, p0);
    assert (objs + [o])[|objs|] == o;
  }

  /** Adding an object hit no nearer than the current answer keeps the
      earlier object: ties go to insertion order. */
  lemma AddFartherObject(m: MathLib, s: Scene, o: Object, ray: Ray, obj0: Option<nat>, p0: Vec3)
    requires !NoHit(s.objects, ray, |s.objects|)
    requires var r := RayIntersection(m, s, ray, obj0, p0);
             HitDistance(m, s.objects, ray, r.obj.value) <= Distance(m, ray.origin, o.intersect(ray).point)
    ensures RayIntersection(m, AddObject(s, o), ray, obj0, p0) == RayIntersection(m, s, ray, obj0, p0)
  {
    var objs := s.objects;
    ScanPrefix(m, objs, [o], ray, |objs|, obj0, p0);
    assert (objs + [o])[|objs|] == o;
  }

  /** Adding an object hit strictly nearer than every other makes it the answer. */
  lemma AddNearerObject(m: MathLib, s: Scene, o: Object, ray: Ray, obj0: Option<nat>, p0: Vec3)
    requires o.intersect(ray).code <= 0.0
    requires forall j :: 0 <= j < |s.objects| && Hit(s.objects, ray, j) ==>
               Distance(m, ray.origin, o.intersect(ray).point) < HitDistance(m, s.objects, ray, j)
    ensures RayIntersection(m, AddObject(s, o), ray, obj0, p0).obj == Some(|s.objects|)
    ensures RayIntersection(m, AddObject(s, o), ray, obj0, p0).point == o.intersect(ray).point
  {
    var objs := s.objects;
    ScanPrefix(m, objs, [o], ray, |objs|, obj0, p0);
    assert (objs + [o])[|objs|] == o;
    var st := Scan(m, objs, ray, |objs|, obj0, p0);
    if st.found {
      assert Hit(objs, ray, st.obj.value);
    }
  }
}

=== FILE: sphere.dfy ===
/** The sphere primitive of Sphere.cpp: ray intersection by the signed
    "squared distance to the line minus r²" code, the outward normal and the
    uniform material. */
module Spheres {
  import opened Basics
  import opened Geometry
  import opened Objects

  datatype Sphere = Sphere(center: Vec3, radius: real, material: Material)

  /** The point at parameter `t` along a ray. */
  function At(ray: Ray, t: real): Vec3 {
    ray.origin.Plus(ray.direction.Scale(t))
  }

  /** `p` lies on the surface of `s`. */
  predicate OnSphere(s: Sphere, p: Vec3) {
    p.Minus(s.center).Norm2() == s.radius * s.radius
  }

  /** `center_direction`: the offset of the ray origin from the centre. */
  function CenterDirection(s: Sphere, ray: Ray): Vec3 {
    ray.origin.Minus(s.center)
  }

  /** `center_closest_point`: `center_direction` minus its component along
      the ray direction. */
  function ClosestOffset(s: Sphere, ray: Ray): Vec3 {
    var cd := CenterDirection(s, ray);
    cd.Minus(ray.direction.Scale(cd.Dot(ray.direction)))
  }

  /** `sphere_distance` as first computed: the squared distance from the
      centre to the ray's line, minus r². */
  function Gap(s: Sphere, ray: Ray): real {
    var ccp := ClosestOffset(s, ray);
    ccp.Dot(ccp) - s.radius * s.radius
  }

  /** `delta`, the discriminant of the quadratic in t. */
  function Delta(s: Sphere, ray: Ray): real {
    var cd := CenterDirection(s, ray);
    var b := ray.direction.Dot(cd);
    4.0 * (b * b) - 4.0 * (cd.Dot(cd) - s.radius * s.radius)
  }

  /** `solution1`, the root with `- sqrt(delta)`. */
  function Solution1(m: MathLib, s: Sphere, ray: Ray): real {
    (-2.0 * ray.direction.Dot(CenterDirection(s, ray)) - m.sqrt(Delta(s, ray))) / 2.0
  }

  /** `solution2`, the root with `+ sqrt(delta)`. */
  function Solution2(m: MathLib, s: Sphere, ray: Ray): real {
    (-2.0 * ray.direction.Dot(CenterDirection(s, ray)) + m.sqrt(Delta(s, ray))) / 2.0
  }

  /** The three cases on the signs of the two roots. */
  datatype RootCase = InFront | Behind | Inside

  function RootSigns(s1: real, s2: real): RootCase {
    if s1 >= 0.0 && s2 >= 0.0 then InFront
    else if s1 < 0.0 && s2 < 0.0 then Behind
    else Inside
  }

  /** `solution`: the ray parameter of the written point.  It is the least
      non-negative root, and 0 when both roots are negative. */
  function ChooseRoot(s1: real, s2: real): (t: real)
    ensures 0.0 <= t
    ensures s1 < 0.0 && s2 < 0.0 ==> t == 0.0
    ensures 0.0 <= s1 || 0.0 <= s2 ==> t == s1 || t == s2
    ensures 0.0 <= s1 ==> t <= s1
    ensures 0.0 <= s2 ==> t <= s2
  {
    match RootSigns(s1, s2)
    case InFront => Min(s1, s2)
    case Behind => 0.0
    case Inside => Max(s1, s2)
  }

  /** `Sphere::rayIntersection`: returns the signed code (a hit when <= 0)
      and the point it writes. */
  function RayIntersection(m: MathLib, s: Sphere, ray: Ray): Intersection {
    var gap := Gap(s, ray);
    if gap <= 0.0 then
      var s1 := Solution1(m, s, ray);
      var s2 := Solution2(m, s, ray);
      var code := if RootSigns(s1, s2) == Behind then -gap else gap;
      Intersection(code, At(ray, ChooseRoot(s1, s2)))
    else
      Intersection(gap, s.center.Minus(ClosestOffset(s, ray)))
  }

  /** `Sphere::getNormal`: the outward unit normal, and the zero vector (with
      no division) at the centre. */
  function GetNormal(m: MathLib, s: Sphere, p: Vec3): (n: Vec3)
    requires ValidSqrt(m)
    ensures p == s.center ==> n == Origin
    ensures p != s.center ==> IsUnit(n)
    ensures p != s.center ==> n.Scale(Norm(m, p.Minus(s.center))) == p.Minus(s.center)
  {
    var u := p.Minus(s.center);
    var l2 := u.Norm2();
    Norm2ZeroIff(u);
    MinusZero(p, s.center);
    if l2 != 0.0 then
      DivByNormIsUnit(m, u);
      u.Div(m.sqrt(l2))
    else
      u
  }

  /** `Sphere::getMaterial`: the material is the same at every point. */
  function GetMaterial(s: Sphere, p: Vec3): Material {
    s.material
  }

  /** The sphere as a graphical object. */
  function AsObject(m: MathLib, s: Sphere): (o: Object)
    requires ValidSqrt(m)
  {
    Object(ray => RayIntersection(m, s, ray), p => GetNormal(m, s, p), p => GetMaterial(s, p))
  }

  /** Seen as a graphical object, the sphere has its one material at every
      point and reports the normal and intersection of the sphere. */
  lemma UniformMaterial(m: MathLib, s: Sphere, p: Vec3, q: Vec3)
    requires ValidSqrt(m)
    ensures AsObject(m, s).material(p) == AsObject(m, s).material(q) == s.material
  {
  }

  // ---------------------------------------------------------------------
  // Algebra of the intersection, for a unit ray direction.

  /** `sphere_distance` is the negated quarter of the discriminant, and the
      squared distance from the centre to a point of the line is a quadratic
      in t whose constant and linear parts are those of the discriminant. */
  lemma GapAndDelta(s: Sphere, ray: Ray, t: real)
    requires IsUnit(ray.direction)
    ensures Delta(s, ray) == -4.0 * Gap(s, ray)
    ensures var b := ray.direction.Dot(CenterDirection(s, ray));
            At(ray, t).Minus(s.center).Norm2() - s.radius * s.radius == (t + b) * (t + b) + Gap(s, ray)
  {
    var cd := CenterDirection(s, ray);
    var b := ray.direction.Dot(cd);
    GapExpansion(s, ray);
    LineExpansion(s, ray, t);
    assert (t + b) * (t + b) == t * t + 2.0 * t * b + b * b;
  }

  /** `sphere_distance = |cd|² - b² - r²`, with `b = d.cd`. */
  lemma GapExpansion(s: Sphere, ray: Ray)
    requires IsUnit(ray.direction)
    ensures var cd := CenterDirection(s, ray);
            var b := ray.direction.Dot(cd);
            Gap(s, ray) == cd.Norm2() - b * b - s.radius * s.radius
  {
    var d := ray.direction;
    var cd := CenterDirection(s, ray);
    var b := d.Dot(cd);
    assert cd.Dot(d) == b;
    assert ClosestOffset(s, ray) == cd.Plus(d.Scale(-b));
    Norm2OfRay(cd, d, -b);
    assert 2.0 * (-b) * b + (-b) * (-b) * 1.0 == -(b * b);
  }

  /** `|o + t d - c|² = |cd|² + 2 t b + t²` for a unit direction. */
  lemma LineExpansion(s: Sphere, ray: Ray, t: real)
    requires IsUnit(ray.direction)
    ensures var cd := CenterDirection(s, ray);
            var b := ray.direction.Dot(cd);
            At(ray, t).Minus(s.center).Norm2() == cd.Norm2() + 2.0 * t * b + t * t
  {
    var d := ray.direction;
    var cd := CenterDirection(s, ray);
    assert cd.Dot(d) == d.Dot(cd);
    assert At(ray, t).Minus(s.center) == cd.Plus(d.Scale(t));
    Norm2OfRay(cd, d, t);
  }

  /** With a non-negative discriminant the two solutions are exactly the
      roots of the quadratic `(t + b)² + gap`. */
  lemma QuadraticRoots(t: real, b: real, g: real, sq: real, s1: real, s2: real)
    requires 0.0 <= sq && sq * sq == -4.0 * g
    requires s1 == (-2.0 * b - sq) / 2.0 && s2 == (-2.0 * b + sq) / 2.0
    ensures (t + b) * (t + b) + g == 0.0 <==> t == s1 || t == s2
  {
    var h := sq / 2.0;
    assert (t + b) * (t + b) + g == (t + b - h) * (t + b + h);
    if (t + b) * (t + b) + g == 0.0 {
      ZeroProduct(t + b - h, t + b + h);
    }
  }

  /** For a unit direction, a point of the line is on the sphere exactly
      when its parameter is a root of `(t + b)² + sphere_distance`. */
  lemma OnSphereIff(s: Sphere, ray: Ray, t: real)
    requires IsUnit(ray.direction)
    ensures var b := ray.direction.Dot(CenterDirection(s, ray));
            OnSphere(s, At(ray, t)) <==> (t + b) * (t + b) + Gap(s, ray) == 0.0
  {
    GapAndDelta(s, ray, t);
  }

  lemma DeltaIsMinusFourGap(s: Sphere, ray: Ray)
    requires IsUnit(ray.direction)
    ensures Delta(s, ray) == -4.0 * Gap(s, ray)
  {
    GapAndDelta(s, ray, 0.0);
  }

  /** Given a unit direction and a line that meets the sphere, the
      discriminant is non-negative and `solution1 <= solution2`. */
  lemma DiscriminantNonNegative(m: MathLib, s: Sphere, ray: Ray)
    requires ValidSqrt(m) && IsUnit(ray.direction)
    requires Gap(s, ray) <= 0.0
    ensures 0.0 <= Delta(s, ray)
    ensures Solution1(m, s, ray) <= Solution2(m, s, ray)
  {
    DeltaIsMinusFourGap(s, ray);
    SqrtSpec(m, Delta(s, ray));
  }

  /** The two solutions are the roots of `(t + b)² + sphere_distance`. */
  lemma SolutionsSolveQuadratic(m: MathLib, s: Sphere, ray: Ray, t: real)
    requires ValidSqrt(m) && IsUnit(ray.direction)
    requires Gap(s, ray) <= 0.0
    ensures var b := ray.direction.Dot(CenterDirection(s, ray));
            (t + b) * (t + b) + Gap(s, ray) == 0.0 <==> t == Solution1(m, s, ray) || t == Solution2(m, s, ray)
  {
    DeltaIsMinusFourGap(s, ray);
    var b := ray.direction.Dot(CenterDirection(s, ray));
    var g := Gap(s, ray);
    var delta := Delta(s, ray);
    var sq := m.sqrt(delta);
    SqrtSpec(m, delta);
    var s1 := Solution1(m, s, ray);
    var s2 := Solution2(m, s, ray);
    assert s1 == (-2.0 * b - sq) / 2.0;
    assert s2 == (-2.0 * b + sq) / 2.0;
    QuadraticRoots(t, b, g, sq, s1, s2);
  }

  /** For a unit direction whose line meets the sphere, a point of the line
      is on the sphere if and only if its parameter is one of the two
      solutions. */
  lemma SolutionsAreTheIntersections(m: MathLib, s: Sphere, ray: Ray, t: real)
    requires ValidSqrt(m) && IsUnit(ray.direction)
    requires Gap(s, ray) <= 0.0
    ensures OnSphere(s, At(ray, t)) <==> t == Solution1(m, s, ray) || t == Solution2(m, s, ray)
  {
    SolutionsSolveQuadratic(m, s, ray, t);
    OnSphereIff(s, ray, t);
  }

  /** When `sphere_distance` is positive the whole line misses the sphere and
      that positive value is returned, with the point `center - center_closest_point`
      (which lies outside the sphere). */
  lemma MissOfTheLine(m: MathLib, s: Sphere, ray: Ray, t: real)
    requires IsUnit(ray.direction)
    requires Gap(s, ray) > 0.0
    ensures RayIntersection(m, s, ray).code == Gap(s, ray) > 0.0
    ensures RayIntersection(m, s, ray).point == s.center.Minus(ClosestOffset(s, ray))
    ensures !OnSphere(s, RayIntersection(m, s, ray).point)
    ensures !OnSphere(s, At(ray, t))
  {
    GapAndDelta(s, ray, t);
    var b := ray.direction.Dot(CenterDirection(s, ray));
    SquareNonNegative(t + b);
    var ccp := ClosestOffset(s, ray);
    assert s.center.Minus(ccp).Minus(s.center) == Origin.Minus(ccp);
    assert Origin.Minus(ccp).Norm2() == ccp.Norm2();
  }

  /** Both roots non-negative (the sphere is ahead): the nearer root is used,
      the point is on the sphere and the code is a hit. */
  lemma HitInFront(m: MathLib, s: Sphere, ray: Ray)
    requires ValidSqrt(m) && IsUnit(ray.direction)
    requires Gap(s, ray) <= 0.0
    requires Solution1(m, s, ray) >= 0.0 && Solution2(m, s, ray) >= 0.0
    ensures RayIntersection(m, s, ray).code <= 0.0
    ensures RayIntersection(m, s, ray).point == At(ray, Min(Solution1(m, s, ray), Solution2(m, s, ray)))
    ensures OnSphere(s, RayIntersection(m, s, ray).point)
  {
    SolutionsAreTheIntersections(m, s, ray, ChooseRoot(Solution1(m, s, ray), Solution2(m, s, ray)));
  }

  /** Both roots negative (the sphere is behind): the code is negated, so it
      is >= 0 and exactly 0 only for a tangent line, and the point written is
      the ray origin.  No point of the forward ray is on the sphere. */
  lemma SphereBehind(m: MathLib, s: Sphere, ray: Ray, t: real)
    requires ValidSqrt(m) && IsUnit(ray.direction)
    requires Gap(s, ray) <= 0.0
    requires Solution1(m, s, ray) < 0.0 && Solution2(m, s, ray) < 0.0
    requires 0.0 <= t
    ensures RayIntersection(m, s, ray).code == -Gap(s, ray) >= 0.0
    ensures RayIntersection(m, s, ray).code == 0.0 <==> Gap(s, ray) == 0.0
    ensures RayIntersection(m, s, ray).point == ray.origin
    ensures !OnSphere(s, At(ray, t))
  {
    SolutionsAreTheIntersections(m, s, ray, t);
    assert At(ray, 0.0) == ray.origin;
  }

  /** Roots of different signs (the origin is inside): the larger root is
      used and the point is on the sphere, ahead of the origin. */
  lemma HitFromInside(m: MathLib, s: Sphere, ray: Ray)
    requires ValidSqrt(m) && IsUnit(ray.direction)
    requires Gap(s, ray) <= 0.0
    requires RootSigns(Solution1(m, s, ray), Solution2(m, s, ray)) == Inside
    ensures Solution1(m, s, ray) < 0.0 <= Solution2(m, s, ray)
    ensures RayIntersection(m, s, ray).code <= 0.0
    ensures RayIntersection(m, s, ray).point == At(ray, Max(Solution1(m, s, ray), Solution2(m, s, ray)))
    ensures OnSphere(s, RayIntersection(m, s, ray).point)
  {
    DiscriminantNonNegative(m, s, ray);
    SolutionsAreTheIntersections(m, s, ray, ChooseRoot(Solution1(m, s, ray), Solution2(m, s, ray)));
  }

  /** The intersection contract: whenever a point of the forward ray lies on
      the sphere, the sphere reports a hit, and the point it writes is on the
      sphere at a parameter no larger (the nearest forward point). */
  lemma NearestForwardHit(m: MathLib, s: Sphere, ray: Ray, t: real)
    requires ValidSqrt(m) && IsUnit(ray.direction)
    requires 0.0 <= t && OnSphere(s, At(ray, t))
    ensures var r := RayIntersection(m, s, ray);
            && r.code <= 0.0
            && OnSphere(s, r.point)
            && exists u :: 0.0 <= u <= t && r.point == At(ray, u)
  {
    if Gap(s, ray) > 0.0 {
      MissOfTheLine(m, s, ray, t);
      assert false;
    }
    var s1 := Solution1(m, s, ray);
    var s2 := Solution2(m, s, ray);
    SolutionsAreTheIntersections(m, s, ray, t);
    var u := ChooseRoot(s1, s2);
    SolutionsAreTheIntersections(m, s, ray, u);
    assert RayIntersection(m, s, ray).point == At(ray, u);
  }

  /** Conversely, a strictly negative code is a real hit: the point written
      is on the sphere, on the forward ray. */
  lemma HitIsOnTheRay(m: MathLib, s: Sphere, ray: Ray)
    requires ValidSqrt(m) && IsUnit(ray.direction)
    ensures RayIntersection(m, s, ray).code < 0.0 ==> OnSphere(s, RayIntersection(m, s, ray).point)
    ensures RayIntersection(m, s, ray).code < 0.0 ==>
              exists u :: 0.0 <= u && RayIntersection(m, s, ray).point == At(ray, u)
  {
    if RayIntersection(m, s, ray).code >= 0.0 {
      return;
    }
    var s1 := Solution1(m, s, ray);
    var s2 := Solution2(m, s, ray);
    var u := ChooseRoot(s1, s2);
    assert RootSigns(s1, s2) != Behind;
    SolutionsAreTheIntersections(m, s, ray, u);
    assert RayIntersection(m, s, ray).point == At(ray, u);
  }

  /** The distance from the origin to the point at a non-negative parameter
      of a unit ray is that parameter: the scene's closest-hit distance of a
      sphere is its ray parameter. */
  lemma DistanceAlongRay(m: MathLib, ray: Ray, t: real)
    requires ValidSqrt(m) && IsUnit(ray.direction) && 0.0 <= t
    ensures Distance(m, ray.origin, At(ray, t)) == t
  {
    var v := At(ray, t).Minus(ray.origin);
    assert v == Origin.Plus(ray.direction.Scale(t));
    Norm2OfRay(Origin, ray.direction, t);
    assert v.Norm2() == t * t;
    SqrtOfSquare(m, v.Norm2(), t);
  }

  /** The roots for a ray aimed at the centre from distance `k`. */
  lemma HeadOnSolutions(m: MathLib, s: Sphere, ray: Ray, k: real)
    requires ValidSqrt(m) && IsUnit(ray.direction)
    requires 0.0 < s.radius < k
    requires s.center == At(ray, k)
    ensures Gap(s, ray) == -(s.radius * s.radius)
    ensures Solution1(m, s, ray) == k - s.radius
    ensures Solution2(m, s, ray) == k + s.radius
  {
    var d := ray.direction;
    var r := s.radius;
    var cd := CenterDirection(s, ray);
    assert cd == d.Scale(-k);
    var b := d.Dot(cd);
    assert b == -k * d.Norm2();
    assert cd.Norm2() == k * k * d.Norm2();
    DeltaIsMinusFourGap(s, ray);
    assert Delta(s, ray) == 4.0 * (r * r);
    SqrtOfSquare(m, Delta(s, ray), 2.0 * r);
    var sq := m.sqrt(Delta(s, ray));
    assert Solution1(m, s, ray) == (-2.0 * b - sq) / 2.0;
    assert Gap(s, ray) == -(r * r);
  }

  /** A ray fired from outside straight at the centre hits at distance
      `k - radius`, where the normal is the reversed ray direction. */
  lemma HeadOnHit(m: MathLib, s: Sphere, ray: Ray, k: real)
    requires ValidSqrt(m) && IsUnit(ray.direction)
    requires 0.0 < s.radius < k
    requires s.center == At(ray, k)
    ensures RayIntersection(m, s, ray).code == -(s.radius * s.radius) < 0.0
    ensures RayIntersection(m, s, ray).point == At(ray, k - s.radius)
    ensures Distance(m, ray.origin, RayIntersection(m, s, ray).point) == k - s.radius
    ensures GetNormal(m, s, RayIntersection(m, s, ray).point) == ray.direction.Scale(-1.0)
  {
    var r := s.radius;
    HeadOnPoint(m, s, ray, k);
    var p := At(ray, k - r);
    assert RayIntersection(m, s, ray).point == p;
    DistanceAlongRay(m, ray, k - r);
    OffsetAlongRay(ray, k, r);
    NormalOfReversedDirection(m, s, p, ray.direction);
  }

  lemma HeadOnPoint(m: MathLib, s: Sphere, ray: Ray, k: real)
    requires ValidSqrt(m) && IsUnit(ray.direction)
    requires 0.0 < s.radius < k
    requires s.center == At(ray, k)
    ensures RayIntersection(m, s, ray).code == -(s.radius * s.radius) < 0.0
    ensures RayIntersection(m, s, ray).point == At(ray, k - s.radius)
  {
    HeadOnSolutions(m, s, ray, k);
    HitInFront(m, s, ray);
  }

  lemma OffsetAlongRay(ray: Ray, k: real, r: real)
    ensures At(ray, k - r).Minus(At(ray, k)) == ray.direction.Scale(-r)
  {
  }

  /** At a point `r` behind the centre along a unit direction, the normal is
      the reversed direction. */
  lemma NormalOfReversedDirection(m: MathLib, s: Sphere, p: Vec3, d: Vec3)
    requires ValidSqrt(m) && IsUnit(d) && 0.0 < s.radius
    requires p.Minus(s.center) == d.Scale(-s.radius)
    ensures GetNormal(m, s, p) == d.Scale(-1.0)
  {
    var r := s.radius;
    var u := p.Minus(s.center);
    var e := d.Scale(-1.0);
    assert IsUnit(e);
    assert u == e.Scale(r);
    UnitNonZero(e);
    ScaleNonZero(e, r);
    MinusZero(p, s.center);
    NormOfScaledUnit(m, e, r);
    var n := GetNormal(m, s, p);
    assert n.Scale(r) == e.Scale(r);
    ScaleCancel(n, e, r);
  }

  /** The code measures the gap only along a unit direction.  From (0, 0, 5)
      along (0, 0, -0.8), the unit sphere at the origin gives the positive
      code 2.24, a miss, though the point at t = 5 is on it. */
  lemma ShortDirectionMiss(m: MathLib, s: Sphere, ray: Ray)
    requires s.center == Origin && s.radius == 1.0
    requires ray.origin == Vec3(0.0, 0.0, 5.0) && ray.direction == Vec3(0.0, 0.0, -0.8)
    ensures RayIntersection(m, s, ray).code == 2.24
    ensures OnSphere(s, At(ray, 5.0))
  {
    ShortDirectionGap(s, ray);
    ShortDirectionTop(s, ray);
  }

  lemma ShortDirectionGap(s: Sphere, ray: Ray)
    requires s.center == Origin && s.radius == 1.0
    requires ray.origin == Vec3(0.0, 0.0, 5.0) && ray.direction == Vec3(0.0, 0.0, -0.8)
    ensures Gap(s, ray) == 2.24
  {
    var ccp := Vec3(0.0, 0.0, 1.8);
    assert CenterDirection(s, ray) == Vec3(0.0, 0.0, 5.0);
    OffsetAbove();
    GapOf(s, ray, ccp);
    DotAlongZ(1.8, 1.8);
  }

  lemma ShortDirectionTop(s: Sphere, ray: Ray)
    requires s.center == Origin && s.radius == 1.0
    requires ray.origin == Vec3(0.0, 0.0, 5.0) && ray.direction == Vec3(0.0, 0.0, -0.8)
    ensures OnSphere(s, At(ray, 5.0))
  {
    var top := Vec3(0.0, 0.0, 1.0);
    StepFromAbove();
    assert At(ray, 5.0) == top;
    OnSphereOf(s, top, top);
    DotAlongZ(1.0, 1.0);
    UnitSquare(s.radius);
  }

  /** Five steps of (0, 0, -0.8) from (0, 0, 5) reach (0, 0, 1). */
  lemma StepFromAbove()
    ensures Vec3(0.0, 0.0, 5.0).Plus(Vec3(0.0, 0.0, -0.8).Scale(5.0)) == Vec3(0.0, 0.0, 1.0)
  {
  }

  lemma UnitSquare(r: real)
    requires r == 1.0
    ensures r * r == 1.0
  {
  }

  lemma OnSphereOf(s: Sphere, p: Vec3, q: Vec3)
    requires p.Minus(s.center) == q
    ensures OnSphere(s, p) <==> q.Dot(q) == s.radius * s.radius
  {
  }

  /** `center_closest_point` for that ray: (0, 0, 5) less its projection on
      (0, 0, -0.8), scaled as if the direction were a unit vector. */
  lemma OffsetAbove()
    ensures var cd := Vec3(0.0, 0.0, 5.0);
            var d := Vec3(0.0, 0.0, -0.8);
            cd.Minus(d.Scale(cd.Dot(d))) == Vec3(0.0, 0.0, 1.8)
  {
    assert Vec3(0.0, 0.0, 5.0).Dot(Vec3(0.0, 0.0, -0.8)) == -4.0;
  }

  lemma GapOf(s: Sphere, ray: Ray, c: Vec3)
    requires ClosestOffset(s, ray) == c
    ensures Gap(s, ray) == c.Dot(c) - s.radius * s.radius
  {
  }

  lemma DotAlongZ(a: real, b: real)
    ensures Vec3(0.0, 0.0, a).Dot(Vec3(0.0, 0.0, b)) == a * b
  {
  }
}
